=== FILE: README.md ===
# Hash map, spam detector and fractal drawer — a Dafny model

This project models three pieces of a C++ course repository and proves what they promise.

- **`HashMap<KeyT, ValueT>`** (`cpp_ex3/HashMap.hpp`). A generic separate-chaining hash map.
  - Capacity is a power of two, and a key's bucket is `std::hash(key) & (capacity - 1)`.
  - It doubles when the load factor goes above 3/4 and halves when it drops below 1/4.
  - It has a const forward iterator that walks the buckets in index order.
- **The spam detector** (`cpp_ex3/SpamDetector.cpp`). It parses a CSV database of `phrase,score` lines into a `HashMap<string, int>`. It parses a positive threshold. It lowers the message and ranks it: every phrase's score times its number of non-overlapping occurrences, summed and compared with the threshold.
- **The fractal drawer** (`cpp_ex2/Fractal.cpp`, `cpp_ex2/Fractal.h`, `cpp_ex2/FractalDrawer.cpp`).
  - It validates a `.csv` command file whose lines are `type,dim`.
  - For each line it builds a Sierpinski carpet, a Sierpinski triangle or a Vicsek fractal. Each is a square board of `factor^dim` rows built by recursive subdivision.
  - It prints the boards in reverse order.

Modules, one per source concept:

- `wrappers.dfy` (module `Wrappers`): `Option`, `Result`, and `MapResults` (apply a fallible step to every element, stop at the first failure).
- `bits.dfy` (module `Bits`): powers of two; `BitAnd` on naturals; the fact that masking with `n - 1` is `mod n`.
- `chains.dfy` (module `Chains`): one bucket as an association list: first-match lookup, the map a list denotes, flattening.
- `hashmap.dfy` (module `HashMap`): the table (`seq` of buckets plus the element counter), its invariants, and every public and private operation.
- `iterator.dfy` (module `HashMapIterator`): `const_iterator` as a `(bucket, offset)` cursor, `begin`/`end`/`++`/`*`, and the full walk.
- `text.dfy` (module `Text`): the C character classes, `std::stoi`, and `std::string::find`.
- `tokenizer.dfy` (module `Tokenizer`): `boost::tokenizer` on one separator, keeping empty tokens or dropping them.
- `spamdetector.dfy` (module `SpamDetector`): field parsing, lowering, occurrence counting, ranking, and the database fold.
- `fractal.dfy` (module `Fractal`): types, patterns, gap conditions, the board, `build`, and a cell-by-cell reference definition of each fractal.
- `fractaldrawer.dfy` (module `FractalDrawer`): suffix, digit and column checks, `parseFileLine`, `fractalFactory`, and the output order.

Modelling choices:

- `std::hash<KeyT>` is a parameter `hash: K -> nat` of every table operation.
- The table is an immutable value: `Table(buckets: seq<seq<(K, V)>>, size: nat)`.
  - Its meaning is the ghost `Contents(m): map<K, V>`.
  - `Layout` is the storage invariant:
    - the capacity is a power of two;
    - every entry sits in the bucket its hash selects;
    - no key appears twice;
    - the counter equals the number of entries.
  - `Valid` adds the bound that is true after every public call: a load of at most 3/4.
- A thrown exception is an `Err`:
  - `KeyNotFound` for `std::out_of_range`;
  - `LengthMismatch` for the vector constructor's `std::invalid_argument`;
  - `InvalidInput` for the two programs' "Invalid input" exit.
- A reference `T&` that the caller writes through is modelled as a write. `(*this)[key] = value` becomes `IndexAssign`: `operator[]` followed by `SetValue`.
- A Dafny `string` is a `seq<char>`, and each `char` stands for one byte of a C++ `std::string`. In the "C" locale, `tolower`, `isalpha`, `isdigit` and `isspace` only change or recognise ASCII characters, so nothing is lost by this reading.
- The fractal board is a `seq<string>`.
  - `Cell` is an independent, cell-by-cell definition of each fractal: a cell lies in a skipped sub-block or recurses into the fractal one dimension down.
  - The main theorem, `Fractal.NewFractalCells`, says the board `build` writes is exactly that definition.
  - `Scale(k, s)` is `k * s` written as repeated addition, so that the block arithmetic stays linear. `Fractal.ScaleIsProduct` proves it equals the product.

## Model

| member | source | states |
|---|---|---|
| Wrappers.MapResults | cpp_ex3/SpamDetector.cpp:189-194 | the per-line loop (also `processCommandFile`'s, cpp_ex2/FractalDrawer.cpp:221-226) succeeds iff every line does, with one result per line in order, and otherwise fails with the first failing line's error |
| Bits.BitAndAtMostMask | cpp_ex3/HashMap.hpp:108 | masking a hash never yields more than the mask |
| Bits.LowMaskIsMod | cpp_ex3/HashMap.hpp:108 | for a power of two `n`, `h & (n - 1)` is `h mod n` |
| HashMap.SlotIsHashModCapacity | cpp_ex3/HashMap.hpp:106-109 | masking the hash with `capacity - 1` picks slot `hash(key) mod capacity`, which is inside the table, for every power-of-two capacity |
| HashMap.Slot | cpp_ex3/HashMap.hpp:106-109 | `_hash` always names a bucket inside the table |
| HashMap.KeyOnlyInItsBucket | cpp_ex3/HashMap.hpp:88-99 | in a well-formed table, a key is found in no bucket other than the one its hash selects, so scanning that one bucket is enough |
| HashMap.ContentsIsBucketLookup | cpp_ex3/HashMap.hpp:88-99 | the key/value map the table represents answers every key exactly as the first-match scan of the key's own bucket does |
| HashMap.EntriesDistinct | cpp_ex3/HashMap.hpp:241-249 | all entries of a well-formed table, across all buckets, have pairwise distinct keys |
| HashMap.Size | cpp_ex3/HashMap.hpp:225 | `size()` is the number of keys the table maps |
| HashMap.Capacity | cpp_ex3/HashMap.hpp:229 | `capacity()` is a power of two, so at least 1 |
| HashMap.SizeIsContentsSize | cpp_ex3/HashMap.hpp:225 | the element counter equals the number of keys in the represented map |
| HashMap.EmptyTable | cpp_ex3/HashMap.hpp:135-136 | the capacity constructor gives `capacity` empty buckets and a zero counter |
| HashMap.LoadFactorCompare | cpp_ex3/HashMap.hpp:326-329 | for a positive capacity, `size / capacity > 3/4` iff `4 * size > 3 * capacity`, and `size / capacity < 1/4` iff `4 * size < capacity` |
| HashMap.AboveUpperLoad | cpp_ex3/HashMap.hpp:250 | the integer test holds exactly when `size / capacity`, as an exact fraction, is above 3/4 |
| HashMap.BelowLowerLoad | cpp_ex3/HashMap.hpp:310 | the integer test holds exactly when `size / capacity`, as an exact fraction, is below 1/4 |
| HashMap.FindFrom | cpp_ex3/HashMap.hpp:91-97 | the bucket scan finds the first position holding the key, agreeing with first-match lookup, and fails exactly when no entry has the key |
| HashMap.GetPairByKey | cpp_ex3/HashMap.hpp:88-99 | returns the entry for the key and its index in the key's bucket, or `KeyNotFound` exactly when that bucket lacks the key |
| HashMap.ContainsKey | cpp_ex3/HashMap.hpp:262-273 | true iff the key is in the represented map |
| HashMap.At | cpp_ex3/HashMap.hpp:281-284 | returns the mapped value when the key is present; otherwise fails with `KeyNotFound` |
| HashMap.IsEmpty | cpp_ex3/HashMap.hpp:233 | true iff the represented map is empty |
| HashMap.BucketIndex | cpp_ex3/HashMap.hpp:348-355 | for a present key, returns `hash(key) mod capacity`, a bucket that holds the key; for an absent key, fails with `KeyNotFound` |
| HashMap.BucketSize | cpp_ex3/HashMap.hpp:337-340 | for a present key, returns the (positive) length of the bucket holding it; for an absent key, fails with `KeyNotFound` |
| HashMap.PlacePreservesLayout | cpp_ex3/HashMap.hpp:248-249 | appending an absent key to its bucket and counting it keeps the storage invariant and adds exactly that key/value pair |
| HashMap.Add | cpp_ex3/HashMap.hpp:243-249 | the insert step before the load check keeps the invariant and the capacity; it adds the pair only when the key is absent |
| HashMap.Rehash | cpp_ex3/HashMap.hpp:122-126 | the refill loop with the nested inserts' load check left to `RehashStaysUnderUpperLoad`: inserting a list of entries keeps the capacity and gives the union of the two maps, where keys already in the table, or earlier in the list, win |
| HashMap.RehashStaysUnderUpperLoad | cpp_ex3/HashMap.hpp:122-126 | while `_resizeTable` refills the new table, its load never goes above 3/4, so the nested inserts never resize |
| HashMap.RehashIntoEmpty | cpp_ex3/HashMap.hpp:122-127 | re-inserting every entry into an empty table of any power-of-two capacity keeps the represented map and the count |
| HashMap.ResizeTable | cpp_ex3/HashMap.hpp:118-129 | for a `newSize` that holds the elements at a load of at most 3/4, as both callers pass, a resize keeps the represented map and `size`, takes the new capacity exactly when `size <= newSize` and `newSize >= 1`, otherwise leaves the table untouched, and ends at most 3/4 loaded, so the nested inserts never resize |
| HashMap.GrowIfAboveUpperLoad | cpp_ex3/HashMap.hpp:250-253 | above 3/4 load the capacity doubles, otherwise it stays; either way the map is unchanged and the load ends at most 3/4 |
| HashMap.GrowthRestoresLoad | cpp_ex3/HashMap.hpp:250-253 | one more element on a table loaded at most 3/4 fits within 3/4 of twice the capacity |
| HashMap.Insert | cpp_ex3/HashMap.hpp:241-255 | for a present key: returns false and leaves the table unchanged, so it never overwrites; for an absent key: returns true, adds exactly that pair, increments `size`, and doubles the capacity exactly when the new load exceeds 3/4; without a doubling, the pair is appended at the end of its own bucket and every other bucket is unchanged; the table stays valid |
| HashMap.RemoveAt | cpp_ex3/HashMap.hpp:308 | `vector::erase` drops the entry at the index and keeps the others in their order |
| HashMap.RemovePreservesLayout | cpp_ex3/HashMap.hpp:306-309 | removing a present key's entry from its bucket keeps the storage invariant and forgets exactly that key |
| HashMap.Erase | cpp_ex3/HashMap.hpp:302-320 | true iff the key was present; afterwards the key is gone and nothing else changes; an absent key leaves the table untouched; a present key decrements `size` and halves the capacity exactly when the new load is below 1/4 and the capacity is at least 2; without a halving, only that entry leaves its bucket |
| HashMap.Clear | cpp_ex3/HashMap.hpp:360-367 | maps nothing, has `size` 0 and keeps the capacity |
| HashMap.New | cpp_ex3/HashMap.hpp:154-155 | the default constructor gives a valid empty table of 16 buckets |
| HashMap.Index | cpp_ex3/HashMap.hpp:377-389 | afterwards the key is present and the returned value is the one it maps to; a present key leaves the table unchanged; an absent key is added with the default value |
| HashMap.SetValue | cpp_ex3/HashMap.hpp:174 | writing through the reference of a present key changes that key's value and nothing else |
| HashMap.SetValueKeepsLayout | cpp_ex3/HashMap.hpp:174 | overwriting a value in place keeps the storage invariant and updates one key |
| HashMap.IndexAssign | cpp_ex3/HashMap.hpp:174 | `(*this)[key] = value` maps the key to the value whether or not it was present, and changes nothing else |
| HashMap.LastWinsPicksLastOccurrence | cpp_ex3/HashMap.hpp:157-176 | in the map two parallel vectors describe, each key maps to the value paired with its last occurrence |
| HashMap.LastWinsKeys | cpp_ex3/HashMap.hpp:157-176 | that map has no key outside the key vector |
| HashMap.FromVectors | cpp_ex3/HashMap.hpp:165-176 | fails with `LengthMismatch` exactly when the lengths differ; otherwise gives a valid table whose map is the last-value-wins map of the two vectors |
| HashMap.AllFound | cpp_ex3/HashMap.hpp:421-427 | true iff every listed entry is in the table with an equal value |
| HashMap.EqualsIsSameContents | cpp_ex3/HashMap.hpp:415-436 | equal sizes plus "every entry of `other` is in `this` with an equal value" holds iff the two represented maps are equal |
| HashMap.SameContentsWalkFinds | cpp_ex3/HashMap.hpp:417-428 | two tables representing the same map have equal sizes, and every entry of `other` is found in `this` with its value |
| HashMap.WalkFindsSameContents | cpp_ex3/HashMap.hpp:417-428 | equal sizes and every entry of `other` found in `this` with an equal value imply that the two tables represent the same map |
| HashMap.Equals | cpp_ex3/HashMap.hpp:415-436 | `operator==` is true iff the two tables represent the same map |
| HashMap.NotEquals | cpp_ex3/HashMap.hpp:442-445 | `operator!=` is true iff the two tables represent different maps |
| HashMapIterator.SetEnd | cpp_ex3/HashMap.hpp:518-524 | the end position cannot be dereferenced and leaves nothing to visit |
| HashMapIterator.NextBucket | cpp_ex3/HashMap.hpp:487-500 | finds the first entry of the first non-empty bucket at or after the start; every bucket it skips is empty; it returns the end position only when all remaining buckets are empty |
| HashMapIterator.MakeIterator | cpp_ex3/HashMap.hpp:534-545 | the constructor gives the end position for an empty map; otherwise the first entry of a bucket at or after `startFromBucket`, with every bucket in between empty, or the end position |
| HashMapIterator.Begin | cpp_ex3/HashMap.hpp:612-615 | `cbegin()` is the end position for an empty map; otherwise it is the first entry of the first non-empty bucket, or the end position |
| HashMapIterator.Deref | cpp_ex3/HashMap.hpp:550 | `*it` is the next entry the walk from `it` visits |
| HashMapIterator.End | cpp_ex3/HashMap.hpp:604-607 | `end()` is the end position and cannot be dereferenced |
| HashMapIterator.Advance | cpp_ex3/HashMap.hpp:506-512 | `++` from an entry moves to another entry or to `end()` |
| HashMapIterator.EndHasNothingLeft | cpp_ex3/HashMap.hpp:604-607 | nothing remains to visit at `end()` |
| HashMapIterator.NextBucketRemaining | cpp_ex3/HashMap.hpp:487-500 | from the start of the bucket scan, the rest of the walk is every entry of the buckets from there on, in bucket order |
| HashMapIterator.BeginRemaining | cpp_ex3/HashMap.hpp:534-545 | walking from `begin()` visits every entry of the table in bucket-index order, and within a bucket in insertion order |
| HashMapIterator.AdvanceRemaining | cpp_ex3/HashMap.hpp:560-564 | one `++` yields the entry under the cursor and leaves exactly the entries after it |
| HashMapIterator.Entries | cpp_ex3/HashMap.hpp:123-126 | the loop `for (it = cbegin(); it != cend(); ++it)` visits `size()` entries with distinct keys, each exactly once, and they are exactly the represented map |
| Text.StoI | cpp_ex3/SpamDetector.cpp:112 | `stoi` succeeds only when the text has a digit, and gives a negative value only when it has a minus sign |
| Text.StoIOfDigits | cpp_ex3/SpamDetector.cpp:112 | on a non-empty digit string, `stoi` gives the string's decimal value |
| Text.StoIDigitsThen | cpp_ex2/FractalDrawer.cpp:150 | `stoi` reads a run of digits and ignores whatever non-digit follows it |
| Text.DigitsRunThen | cpp_ex2/FractalDrawer.cpp:150 | the leading run of digits of `digits + rest` is exactly `digits` when `rest` starts with a non-digit |
| Text.FindChar | cpp_ex3/SpamDetector.cpp:96 | `find(c, pos)` returns the first index at or after `pos` that holds `c`, or `npos` when there is none |
| Text.Find | cpp_ex3/SpamDetector.cpp:257 | `find(s, pos)` returns the first position at or after `pos` where `s` occurs, or `npos` when it occurs nowhere from there |
| Tokenizer.SplitKeep | cpp_ex3/SpamDetector.cpp:138-140 | keeping empty tokens gives no token exactly for the empty line, and no token contains the separator |
| Tokenizer.JoinSplitKeep | cpp_ex3/SpamDetector.cpp:138-140 | joining the kept tokens with the separator gives back the line |
| Tokenizer.SplitKeepJoin | cpp_ex3/SpamDetector.cpp:138-140 | splitting a join of separator-free fields gives back exactly those fields, except a single empty field, whose join is the empty line |
| Tokenizer.SplitDrop | cpp_ex2/FractalDrawer.cpp:134-136 | the default separator policy gives only non-empty tokens, none containing the separator |
| Tokenizer.SplitDropKeepsCharacters | cpp_ex2/FractalDrawer.cpp:134-136 | dropping empty tokens loses no character: the tokens laid end to end are the line without its separators |
| SpamDetector.HasLetters | cpp_ex3/SpamDetector.cpp:69-72 | true iff some character is alphabetic |
| SpamDetector.ParsePhrase | cpp_ex3/SpamDetector.cpp:79-87 | accepts exactly the non-empty inputs, letters or not, and returns them unchanged |
| SpamDetector.IsInt | cpp_ex3/SpamDetector.cpp:94-97 | true iff the string contains no `'.'` |
| SpamDetector.ParseScore | cpp_ex3/SpamDetector.cpp:106-124 | refuses the empty string and any string with a `'.'` or a letter; an accepted score is `stoi`'s value and is not negative; a digit string is accepted with its decimal value |
| SpamDetector.ParseThreshold | cpp_ex3/SpamDetector.cpp:226-238 | accepts exactly the scores that are strictly positive; everything else is invalid input |
| SpamDetector.ParseCsvLine | cpp_ex3/SpamDetector.cpp:135-147 | an accepted line is a non-empty phrase, one comma, and a score text that parses to a non-negative score |
| SpamDetector.CsvLineNeedsOneSeparator | cpp_ex3/SpamDetector.cpp:64-67 | a line that splits into any number of fields other than two is invalid input |
| SpamDetector.CsvLineOfFields | cpp_ex3/SpamDetector.cpp:135-147 | a valid phrase and a valid score text joined by a comma parse back to that phrase and score |
| SpamDetector.ToLowerChar | cpp_ex3/SpamDetector.cpp:167 | `tolower` maps each of `'A'..'Z'` to the lower-case letter at the same offset from `'a'`, changes no other character, keeps letters letters and never yields a capital |
| SpamDetector.ToLowerCase | cpp_ex3/SpamDetector.cpp:165-168 | keeps the length and lowers each character independently |
| SpamDetector.ToLowerCaseIdempotent | cpp_ex3/SpamDetector.cpp:165-168 | lowering twice is lowering once, and a lowered string has no capital letter |
| SpamDetector.NonOverlappingBound | cpp_ex3/SpamDetector.cpp:255-261 | non-overlapping matches take up no more room than the message |
| SpamDetector.FindNoneCountsNothing | cpp_ex3/SpamDetector.cpp:257 | when `find` reports `npos`, the rest of the message holds no non-overlapping match |
| SpamDetector.FindSomeCountsOne | cpp_ex3/SpamDetector.cpp:257-260 | the match `find` reports is the leftmost one, and counting resumes right after it |
| SpamDetector.FindCounts | cpp_ex3/SpamDetector.cpp:257-260 | what one `find` from `pos` contributes to the non-overlapping count |
| SpamDetector.Occurrences | cpp_ex3/SpamDetector.cpp:255-261 | the search loop counts exactly the non-overlapping, leftmost-first occurrences of the phrase |
| SpamDetector.WeightedScoreNonNegative | cpp_ex3/SpamDetector.cpp:262 | with non-negative scores the rank is never negative |
| SpamDetector.FilterPhrasesNonEmpty | cpp_ex3/SpamDetector.cpp:253 | the phrases that the range-for over a filter yields are non-empty when its keys are |
| SpamDetector.RankMsg | cpp_ex3/SpamDetector.cpp:250-265 | SPAM iff the sum over the filter's entries of score times occurrence count is at least the threshold |
| SpamDetector.EmptyFilterIsNeverSpam | cpp_ex3/SpamDetector.cpp:250-265 | an empty filter never reaches a positive threshold |
| SpamDetector.Lowered | cpp_ex3/SpamDetector.cpp:191-193 | the records whose phrases are lowered before insertion, one for one |
| SpamDetector.InsertAll | cpp_ex3/SpamDetector.cpp:189-194 | repeated `insert` gives a valid filter that keeps every phrase already in it and adds each new phrase with the first score the lines give it |
| SpamDetector.ParseLines | cpp_ex3/SpamDetector.cpp:189-191 | succeeds iff every line parses, and then gives each line's record in order |
| SpamDetector.ParseDataBase | cpp_ex3/SpamDetector.cpp:176-195 | succeeds iff every line parses; then the filter maps each lowered phrase to its first score, every key is non-empty, and every score is non-negative |
| SpamDetector.Detect | cpp_ex3/SpamDetector.cpp:270-296 | fails iff the database or the threshold is invalid; otherwise SPAM iff the weighted score of the lowered message reaches the threshold |
| Fractal.Code | cpp_ex2/Fractal.h:42-47 | every fractal type has a code in 1..3 |
| Fractal.FromCode | cpp_ex2/Fractal.h:42-47 | exactly the codes 1, 2 and 3 name a type, and that type has the code |
| Fractal.DimFactor | cpp_ex2/Fractal.h:26-36 | every type's dimension factor is at least 2 |
| Fractal.Pattern | cpp_ex2/Fractal.h:26-38 | each base pattern is a `factor × factor` square of `'#'` and `' '` |
| Fractal.PatternFollowsSkipRule | cpp_ex2/Fractal.cpp:100-105 | the base patterns are the skip rule at the smallest scale: a character is blank exactly when its one-cell block is skipped |
| Fractal.ScaleIsProduct | cpp_ex2/Fractal.cpp:62-64 | the block corners that the loops step through, `k` times `subSize`, are `k * subSize` |
| Fractal.GapOnBlocks | cpp_ex2/Fractal.h:107-110 | on sub-block corners, `gapCondition` holds exactly for the blocks that the skip rule names |
| Fractal.Gap | cpp_ex2/Fractal.h:107-110 | a skipped sub-block lies on the middle row or column; the centre is skipped by the default condition and kept by the Vicsek override (cpp_ex2/Fractal.h:214-217); the default condition skips only diagonal offsets |
| Fractal.DefaultGapSkipsOnlyCentre | cpp_ex2/Fractal.h:107-110 | the default gap condition skips exactly the sub-block at `(subSize, subSize)` |
| Fractal.VicsekKeepsCornersAndCentre | cpp_ex2/Fractal.h:214-217 | the Vicsek condition keeps exactly the four corner sub-blocks and the centre |
| Fractal.InitialBoard | cpp_ex2/Fractal.cpp:26-31 | the constructor's board has `n` rows of `n` spaces |
| Fractal.Replace | cpp_ex2/Fractal.cpp:102 | `string::replace(pos, count, pat)` keeps the prefix, writes `pat` at `pos`, and shifts the rest; its length follows |
| Fractal.StampRows | cpp_ex2/Fractal.cpp:100-105 | the sequence of `replace` calls of `createBaseCase` keeps the board square and its size |
| Fractal.StampRowsCell | cpp_ex2/Fractal.cpp:100-105 | stamping pattern rows writes exactly the pattern's characters inside its square and changes no other cell |
| Fractal.CreateBaseCase | cpp_ex2/Fractal.cpp:100-105 | `createBaseCase` keeps the board square and its size |
| Fractal.BaseCaseCell | cpp_ex2/Fractal.cpp:127-131 | `createBaseCase` writes the type's base pattern at `(row, col)` and changes no other cell |
| Fractal.CornerFits | cpp_ex2/Fractal.cpp:62-64 | stepping a loop index by `subSize` from a block corner below the size gives another corner, still within the size |
| Fractal.BlockIsDivMod | cpp_ex2/Fractal.cpp:60 | a cell's block index and offset are its quotient and remainder by `subSize` |
| Fractal.Build | cpp_ex2/Fractal.cpp:52-77 | `build` keeps the board square and its size |
| Fractal.BuildFrame | cpp_ex2/Fractal.cpp:52-77 | `build` changes no cell outside its own `factor^dim` square |
| Fractal.BuildBlocksFrame | cpp_ex2/Fractal.cpp:62-75 | the sub-block loops change no cell outside their square |
| Fractal.BuildBlocks | cpp_ex2/Fractal.cpp:62-75 | the two loops of `build` keep the board square and its size |
| Fractal.BuildSubBlock | cpp_ex2/Fractal.cpp:66-73 | one iteration of the inner loop keeps the board square and its size |
| Fractal.SubBlockFrame | cpp_ex2/Fractal.cpp:66-73 | one loop iteration changes no cell outside its sub-block |
| Fractal.SubBlockCell | cpp_ex2/Fractal.cpp:66-73 | in the reference definition, a sub-block is empty when it is skipped and is otherwise the fractal one dimension down |
| Fractal.BuildDrawsCells | cpp_ex2/Fractal.cpp:52-77 | inside its square, `build` draws each cell of the reference definition and leaves the cells that the definition leaves empty |
| Fractal.BaseDrawsCells | cpp_ex2/Fractal.cpp:54-57 | at dimension 1, `build` draws the reference cells through `createBaseCase` |
| Fractal.BuildBlocksDrawCells | cpp_ex2/Fractal.cpp:62-75 | the two loops, from `(i, j)` on, draw the reference cells of every sub-block not yet visited and keep the earlier cells |
| Fractal.RowEndDrawsCells | cpp_ex2/Fractal.cpp:62-64 | at the end of a row of sub-blocks, the outer loop continues with the next row |
| Fractal.StepDrawsCells | cpp_ex2/Fractal.cpp:64-73 | one inner-loop step draws its sub-block and the rest of the loop draws the others |
| Fractal.SubBlockDrawsCells | cpp_ex2/Fractal.cpp:66-73 | one iteration draws the reference cells of its own sub-block and nothing else |
| Fractal.SubBlockDrawsAt | cpp_ex2/Fractal.cpp:66-73 | inside its sub-block, one iteration draws the reference cell or leaves the cell as it was |
| Fractal.SubBlockKeptDraws | cpp_ex2/Fractal.cpp:70-73 | a kept sub-block gets the fractal one dimension down at its corner |
| Fractal.NewFractal | cpp_ex2/Fractal.cpp:86-144 | for each of the three constructors (86-90, 114-118, 140-144): constructing a fractal gives a square board of `factor^dim` rows |
| Fractal.NewFractalCells | cpp_ex2/Fractal.cpp:86-144 | for each of the three constructors (86-90, 114-118, 140-144): each cell of a finished fractal is its reference-definition cell on a blank board, so it is `'#'` or `' '` |
| Fractal.SkippedBlocksBlank | cpp_ex2/Fractal.cpp:66-69 | every cell of a top-level skipped sub-block stays `' '` |
| Fractal.DimensionOneBoards | cpp_ex2/Fractal.cpp:86-144 | for each of the three constructors (86-90, 114-118, 140-144): at dimension 1 the boards are `["###","# #","###"]`, `["##","# "]` and `["# #"," # ","# #"]` |
| FractalDrawer.HasSuffix | cpp_ex2/FractalDrawer.cpp:48-52 | true iff the string is some prefix followed by the suffix |
| FractalDrawer.ValidCommandFileSuffix | cpp_ex2/FractalDrawer.cpp:72-76 | accepts exactly the paths that end in `.csv` or `.CSV` |
| FractalDrawer.CommandFileSuffixes | cpp_ex2/FractalDrawer.cpp:72-76 | any name followed by either suffix is accepted; a path shorter than four characters is refused; an accepted path's last four characters are a suffix |
| FractalDrawer.IsDigit | cpp_ex2/FractalDrawer.cpp:93-103 | true iff every character is a decimal digit, so vacuously true for `""` |
| FractalDrawer.ScanDigits | cpp_ex2/FractalDrawer.cpp:93-103 | the early-exit loop answers the same as "all characters are digits" |
| FractalDrawer.ColValValid | cpp_ex2/FractalDrawer.cpp:111-123 | a column is valid iff it is all digits, or it is column 2 and is all digits followed by one space |
| FractalDrawer.ParseColumns | cpp_ex2/FractalDrawer.cpp:138-153 | the column loop succeeds only when there are at most two columns, each valid for its position; a third column always fails |
| FractalDrawer.ParseFileLine | cpp_ex2/FractalDrawer.cpp:132-154 | a line with more than two non-empty columns is rejected; a parsed line has a type iff it has a column; with fewer than two columns the dimension stays 0 |
| FractalDrawer.ParseColumnsSetsType | cpp_ex2/FractalDrawer.cpp:144-147 | an accepted first column sets the type; with one column the dimension is untouched |
| FractalDrawer.ParseTwoColumns | cpp_ex2/FractalDrawer.cpp:132-154 | `type,dim` with two digit strings, with or without one space after `dim`, parses to the two decimal values |
| FractalDrawer.SpaceAfterTypeRejected | cpp_ex2/FractalDrawer.cpp:113-122 | a space after the type column is invalid input |
| FractalDrawer.BlankDimensionThrows | cpp_ex2/FractalDrawer.cpp:150 | a dimension column of one space passes `colValValid` and then `stoi` throws an exception that nothing catches |
| FractalDrawer.FractalFactory | cpp_ex2/FractalDrawer.cpp:166-198 | yields a fractal iff the dimension is in 1..6 and the type code is in 1..3, and then one of that type and dimension; everything else is invalid input |
| FractalDrawer.ParsedLineFitsFactory | cpp_ex2/FractalDrawer.cpp:223-225 | whenever a parsed line's dimension is in range, its type was set, so the factory never reads an unset type |
| FractalDrawer.ProcessLine | cpp_ex2/FractalDrawer.cpp:223-225 | a line without exactly two columns never yields a fractal; an accepted dimension is in 1..6 |
| FractalDrawer.ProcessTwoColumns | cpp_ex2/FractalDrawer.cpp:223-225 | a `type,dim` line of digits yields a fractal iff the type is 1..3 and the dimension is 1..6, and then of that type and dimension |
| FractalDrawer.ProcessCommandLines | cpp_ex2/FractalDrawer.cpp:221-226 | succeeds iff every line does, giving one fractal per line in order; otherwise it fails with the first failing line's error |
| FractalDrawer.Draw | cpp_ex2/Fractal.cpp:36-42 | the printed board of a request is a square of `factor^dim` rows |
| FractalDrawer.Reverse | cpp_ex2/FractalDrawer.cpp:244 | a reverse iteration visits element `|s| - 1 - k` at step `k` |
| FractalDrawer.OutputFractals | cpp_ex2/FractalDrawer.cpp:242-249 | the boards are printed in the reverse of the order the lines were read, one board per request: the `k`-th printed board draws `Reverse(reqs)[k]` |

## Left out

- File and stream I/O is not modelled. This covers `parseDataBaseFile`'s and `parseTextFile`'s file reading, `validatePath`, the existence and regular-file test of `validateCommandFilePath`, `processCommandFile`'s `ifstream`, and `usage`. The models take the file's lines, or the message text, as parameters.
- `main` in both programs is not modelled. Its argument-count check and exit codes are I/O. `SpamDetector.Detect` models its logic once the files are read.
- `Fractal::draw` is not modelled because it writes to `cout`. `FractalDrawer.Draw` stands for the board that it prints.
- `freeResources` is not modelled. All HashMap memory management is left out too: `new[]`/`delete[]`, the move constructor, copy-and-swap assignment and `_swap`. The table is a value, so copying and moving are the identity.
- Iterator invalidation after a mutation is not modelled. A cursor is a pair of indices into one particular table value.
- The const `operator[]` (cpp_ex3/HashMap.hpp:396-406) is left out. On a miss it returns an unrelated entry's value, and on an empty table it dereferences `end()`, which is undefined behaviour. The const overload of `at` is the same function as the mutable one.
- The C++ `int` widths are not modelled: the counter and capacity are unbounded. `std::stoi`'s `out_of_range` on overflow is not modelled either; `Text.StoI` returns the exact decimal value.
- Text.StoI: its contract only says when `stoi` can succeed and when its value can be negative. The exact value is stated for the inputs the two programs rely on: a digit string (`Text.StoIOfDigits`) and a digit run followed by a non-digit (`Text.StoIDigitsThen`).
- HashMap.AboveUpperLoad: the `double` load-factor comparisons of `getLoadFactor` are modelled as exact integer comparisons, `4 * size > 3 * capacity` and `4 * size < capacity`. They are proved equal to the comparisons on exact fractions (`HashMap.LoadFactorCompare`), but floating-point rounding of `size / (double) capacity` is not modelled.
- HashMap.ResizeTable: requires `4 * size <= 3 * newSize`. The private `_resizeTable` is only called by `insert` (twice the capacity, after at most one element beyond 3/4) and `erase` (half the capacity, below 1/4), and both meet it. For a larger `size` the C++ refill would grow the fresh table again through `insert`'s own load check; that nested growth is not modelled.
- Fractal.Pow: `pow(dimFactor, dim)` in the `Fractal` constructor returns a `double` that is truncated to `int`. It is modelled as exact integer exponentiation.
- Fractal.Build: requires `dim >= 1`. The constructors are only reached from `fractalFactory` with `dim` in 1..6; at `dim == 0` the C++ would loop with `subSize == 0`.
- Fractal.BuildBlocks: `fractalSize / _dimFactor` is modelled as `Pow(factor, dim - 1)`. `build` is only ever called with `fractalSize == factor^dim`, where the two are equal.
- SpamDetector.RankMsg: requires every phrase in the filter to be non-empty. The database parser guarantees this (`SpamDetector.ParseDataBase`). `msg.find("", pos)` on an empty phrase would never return `npos`, and the loop would not end.
- SpamDetector.WeightedScore: the rank is an unbounded sum, so `int` overflow of `rank += elem.second * occurrences` is not modelled.
- FractalDrawer.FractalFactory: requires that the type was set whenever the dimension is in range. In `processCommandFile`, `fractalType` is left uninitialised (cpp_ex2/FractalDrawer.cpp:223). `FractalDrawer.ParsedLineFitsFactory` proves that every parsed line meets this requirement, so the uninitialised value is never read.
- The `Matrix` and `Activation` classes of the first exercise are not part of this model. They are floating-point code with `exp`, outside the three programs modelled here.

Where the code differs from its documentation or from what its constants suggest, the model follows the code:

- The class comment of `HashMap` calls the scheme "open addressing". The code uses separate chaining, with one `vector` per bucket, and so does the model.
- The comment on `parsePhrase` says a phrase must contain letters. The test is `!input.empty() || hasLetters(input)`, so every non-empty phrase is accepted (`SpamDetector.ParsePhrase`).
- The thresholds `LOWER_LOAD_FACTOR` and `UPPER_LOAD_FACTOR` (cpp_ex3/HashMap.hpp:16-17) suggest a load kept in `[1/4, 3/4)`. The code only guarantees the upper bound, and the bound is inclusive: the doubling fires when the load is strictly above 3/4, so a load of exactly 3/4 stays. Three things break the lower bound. A new table starts empty with 16 buckets, `clear` keeps the capacity, and a shrink stops at `MIN_CAPACITY`, which is 1. `HashMap.Valid` therefore states `4 * size <= 3 * capacity` and no lower bound.
- `colValValid(" ", 2)` strips the space and accepts the empty remainder, because `isDigit("")` is true. `stoi(" ")` then throws `std::invalid_argument` out of `parseFileLine`, and nothing catches it. The model keeps this as the distinct failure `UncaughtInvalidArgument` (`FractalDrawer.BlankDimensionThrows`).

=== FILE: bits.dfy ===
/**
 * Integer models of the bit tricks the hash map relies on: capacities that are
 * powers of two, and masking a hash with `capacity - 1` to pick a bucket.
 */
module Bits {

  /** `n` is 1, 2, 4, 8, ... */
  predicate IsPowerOfTwo(n: nat)
    decreases n
  {
    n == 1 || (n >= 2 && n % 2 == 0 && IsPowerOfTwo(n / 2))
  }

  /** Bitwise AND of two naturals, one binary digit at a time. */
  function BitAnd(a: nat, b: nat): nat
    decreases a
  {
    if a == 0 || b == 0 then 0
    else 2 * BitAnd(a / 2, b / 2) + (if a % 2 == 1 && b % 2 == 1 then 1 else 0)
  }

  /** Masking never yields more than the mask. */
  lemma {:induction false} BitAndAtMostMask(a: nat, b: nat)
    ensures BitAnd(a, b) <= b
    decreases a
  {
    if a != 0 && b != 0 {
      BitAndAtMostMask(a / 2, b / 2);
    }
  }

  /** Division and remainder are determined by any decomposition with a remainder in range. */
  lemma DivModUnique(h: nat, d: nat, t: nat, x: nat)
    requires 0 <= x < d
    requires h == d * t + x
    ensures h % d == x && h / d == t
  {
    var q, r := h / d, h % d;
    MulGrows(d, q - t);
    MulGrows(d, t - q);
    assert d * (q - t) == d * q - d * t;
    assert d * (t - q) == d * t - d * q;
  }

  /** A positive multiple of a positive number is at least that number. */
  lemma MulGrows(d: int, k: int)
    ensures d > 0 && k >= 1 ==> d * k >= d
  {
  }

  /** Splitting a remainder modulo `2m` into its last bit and the remainder of the rest. */
  lemma ModDoubleSplit(h: nat, m: nat)
    requires m >= 1
    ensures h % (2 * m) == 2 * ((h / 2) % m) + h % 2
  {
    var q, r := h / 2, h % 2;
    var t, u := q / m, q % m;
    assert q == m * t + u;
    assert h == (2 * m) * t + (2 * u + r) by {
      assert h == 2 * q + r;
    }
    DivModUnique(h, 2 * m, t, 2 * u + r);
  }

  /**
   * For a power-of-two capacity, `hash & (capacity - 1)` is `hash % capacity`:
   * the reason the hash map insists on power-of-two capacities.
   */
  lemma {:induction false} LowMaskIsMod(h: nat, n: nat)
    requires IsPowerOfTwo(n)
    ensures BitAnd(h, n - 1) == h % n
    decreases n
  {
    if n == 1 {
      assert BitAnd(h, 0) == 0;
    } else {
      var m := n / 2;
      if h != 0 {
        assert n == 2 * m && IsPowerOfTwo(m);
        LowMaskIsMod(h / 2, m);
        OddMaskStep(h, m);
        ModDoubleSplit(h, m);
        assert BitAnd(h, n - 1) == BitAnd(h, 2 * m - 1);
        assert h % n == h % (2 * m);
      }
    }
  }

  /** One unfolding of `BitAnd` against an all-ones mask `2m - 1`. */
  lemma OddMaskStep(h: nat, m: nat)
    requires h != 0 && m >= 1
    ensures BitAnd(h, 2 * m - 1) == 2 * BitAnd(h / 2, m - 1) + h % 2
  {
    assert (2 * m - 1) / 2 == m - 1 && (2 * m - 1) % 2 == 1;
  }

  /** Doubling and (for capacities of at least two) halving keep a power of two. */
  lemma PowerOfTwoScaling(n: nat)
    requires IsPowerOfTwo(n)
    ensures IsPowerOfTwo(2 * n)
    ensures n >= 2 ==> n % 2 == 0 && IsPowerOfTwo(n / 2)
  {
    assert (2 * n) / 2 == n;
  }
}

=== FILE: chains.dfy ===
/**
 * Collision lists ("buckets") of key/value entries and the operations on them
 * that the hash map is built from: first-match lookup, the map a list denotes,
 * and the concatenation of all buckets in index order.
 */
module Chains {
  import opened Wrappers

  /** The value of the first entry whose key is `key`; the linear scan of one bucket. */
  function LookupList<K(==), V>(es: seq<(K, V)>, key: K): (r: Option<V>)
    ensures r.Some? ==> (key, r.value) in es
    ensures r.None? ==> forall i :: 0 <= i < |es| ==> es[i].0 != key
  {
    if es == [] then None
    else if es[0].0 == key then Some(es[0].1)
    else LookupList(es[1..], key)
  }

  /** No key occurs twice. */
  ghost predicate DistinctKeys<K, V>(es: seq<(K, V)>)
  {
    forall i, j :: 0 <= i < j < |es| ==> es[i].0 != es[j].0
  }

  /** The map a collision list denotes; an earlier entry shadows a later one with the same key. */
  ghost function ToMap<K, V>(es: seq<(K, V)>): map<K, V>
  {
    if es == [] then map[] else ToMap(es[1..])[es[0].0 := es[0].1]
  }

  /** All buckets laid end to end in index order, each in its own order. */
  function Flatten<T>(bs: seq<seq<T>>): seq<T>
  {
    if bs == [] then [] else bs[0] + Flatten(bs[1..])
  }

  /** Looking up in a concatenation looks in the first part, then in the second. */
  lemma {:induction false} LookupAppend<K, V>(a: seq<(K, V)>, b: seq<(K, V)>, key: K)
    ensures LookupList(a + b, key)
         == if LookupList(a, key).Some? then LookupList(a, key) else LookupList(b, key)
    decreases |a|
  {
    if a != [] {
      assert (a + b)[1..] == a[1..] + b;
      LookupAppend(a[1..], b, key);
    } else {
      assert a + b == b;
    }
  }

  /** An entry of a list with distinct keys is what looking up its key finds. */
  lemma {:induction false} LookupFindsMember<K, V>(es: seq<(K, V)>, i: nat)
    requires DistinctKeys(es)
    requires i < |es|
    ensures LookupList(es, es[i].0) == Some(es[i].1)
    decreases i
  {
    if i > 0 {
      assert es[0].0 != es[i].0;
      assert es[1..][i - 1] == es[i];
      LookupFindsMember(es[1..], i - 1);
    }
  }

  /** Removing the single entry of `key` from a list with distinct keys forgets only `key`. */
  lemma {:induction false} LookupRemoveAt<K, V>(es: seq<(K, V)>, idx: nat, key: K)
    requires DistinctKeys(es)
    requires idx < |es|
    ensures LookupList(es[..idx] + es[idx + 1..], key)
         == if key == es[idx].0 then None else LookupList(es, key)
  {
    var pre, post := es[..idx], es[idx + 1..];
    assert es == pre + ([es[idx]] + post);
    LookupAppend(pre, post, key);
    LookupAppend(pre, [es[idx]] + post, key);
    LookupAppend([es[idx]], post, key);
    if key == es[idx].0 {
      assert forall j :: 0 <= j < |pre| ==> pre[j].0 != key by {
        forall j | 0 <= j < |pre| ensures pre[j].0 != key {
          assert pre[j] == es[j];
        }
      }
      assert LookupList(pre, key).None?;
      assert forall j :: 0 <= j < |post| ==> post[j].0 != key by {
        forall j | 0 <= j < |post| ensures post[j].0 != key {
          assert post[j] == es[idx + 1 + j];
        }
      }
      assert LookupList(post, key).None?;
    }
  }

  /** Removing one entry keeps the remaining keys distinct. */
  lemma RemoveAtKeepsDistinct<K, V>(es: seq<(K, V)>, idx: nat)
    requires DistinctKeys(es)
    requires idx < |es|
    ensures DistinctKeys(es[..idx] + es[idx + 1..])
  {
    var r := es[..idx] + es[idx + 1..];
    forall i, j | 0 <= i < j < |r| ensures r[i].0 != r[j].0 {
      var i' := if i < idx then i else i + 1;
      var j' := if j < idx then j else j + 1;
      assert r[i] == es[i'] && r[j] == es[j'];
    }
  }

  /** `ToMap` agrees with first-match lookup, key by key. */
  lemma {:induction false} ToMapIsLookup<K, V>(es: seq<(K, V)>, key: K)
    ensures Get(ToMap(es), key) == LookupList(es, key)
    decreases |es|
  {
    if es != [] {
      ToMapIsLookup(es[1..], key);
    }
  }

  /**
   * One step of a first-wins fold: adding the first entry unless its key is
   * already there, and then the rest, gives the map of all entries under the
   * starting map.
   */
  lemma ToMapFoldStep<K, V>(es: seq<(K, V)>, before: map<K, V>, after: map<K, V>, result: map<K, V>)
    requires es != []
    requires after == if es[0].0 in before then before else before[es[0].0 := es[0].1]
    requires result == ToMap(es[1..]) + after
    ensures result == ToMap(es) + before
  {
    forall k ensures Get(result, k) == Get(ToMap(es) + before, k) {
      ToMapIsLookup(es, k);
      ToMapIsLookup(es[1..], k);
    }
    MapsAgreeEverywhere(result, ToMap(es) + before);
  }

  /** With distinct keys the denoted map has one key per entry. */
  lemma {:induction false} ToMapSize<K, V>(es: seq<(K, V)>)
    requires DistinctKeys(es)
    ensures |ToMap(es)| == |es|
    decreases |es|
  {
    if es != [] {
      var rest := es[1..];
      assert DistinctKeys(rest) by {
        forall i, j | 0 <= i < j < |rest| ensures rest[i].0 != rest[j].0 {
          assert rest[i] == es[i + 1] && rest[j] == es[j + 1];
        }
      }
      ToMapSize(rest);
      ToMapIsLookup(rest, es[0].0);
      assert forall j :: 0 <= j < |rest| ==> rest[j].0 != es[0].0 by {
        forall j | 0 <= j < |rest| ensures rest[j].0 != es[0].0 {
          assert rest[j] == es[j + 1];
        }
      }
      assert es[0].0 !in ToMap(rest);
    }
  }

  /** An entry lies in the concatenation exactly when it lies in one of the buckets. */
  lemma {:induction false} FlattenMember<T>(bs: seq<seq<T>>, x: T)
    ensures x in Flatten(bs) <==> exists i :: 0 <= i < |bs| && x in bs[i]
    decreases |bs|
  {
    if bs != [] {
      FlattenMember(bs[1..], x);
      if x in Flatten(bs[1..]) {
        var i :| 0 <= i < |bs[1..]| && x in bs[1..][i];
        assert x in bs[i + 1];
      }
      if exists i :: 0 <= i < |bs| && x in bs[i] {
        var i :| 0 <= i < |bs| && x in bs[i];
        if i > 0 {
          assert x in bs[1..][i - 1];
        }
      }
    }
  }

  /** Replacing one bucket changes the total length by the difference of the two buckets. */
  lemma {:induction false} FlattenUpdateLength<T>(bs: seq<seq<T>>, i: nat, x: seq<T>)
    requires i < |bs|
    ensures |Flatten(bs[i := x])| == |Flatten(bs)| - |bs[i]| + |x|
    decreases |bs|
  {
    if i == 0 {
      assert bs[i := x][1..] == bs[1..];
    } else {
      assert bs[i := x][1..] == bs[1..][i - 1 := x];
      FlattenUpdateLength(bs[1..], i - 1, x);
    }
  }

  /** The concatenation of buckets from index `i` on starts with bucket `i`. */
  lemma FlattenSuffix<T>(bs: seq<seq<T>>, i: nat)
    requires i < |bs|
    ensures Flatten(bs[i..]) == bs[i] + Flatten(bs[i + 1..])
  {
    assert bs[i..][1..] == bs[i + 1..];
  }

  /**
   * If `key` can only sit in bucket `s`, looking it up in the concatenation of all
   * buckets is the same as looking it up in bucket `s`.
   */
  lemma {:induction false} LookupFlattenOnlyIn<K, V>(bs: seq<seq<(K, V)>>, key: K, s: nat)
    requires s < |bs|
    requires forall i :: 0 <= i < |bs| && i != s ==> LookupList(bs[i], key).None?
    ensures LookupList(Flatten(bs), key) == LookupList(bs[s], key)
    decreases |bs|
  {
    LookupAppend(bs[0], Flatten(bs[1..]), key);
    if s == 0 {
      if LookupList(bs[0], key).None? {
        LookupFlattenNone(bs[1..], key);
      }
    } else {
      assert forall i :: 0 <= i < |bs[1..]| && i != s - 1 ==> LookupList(bs[1..][i], key).None? by {
        forall i | 0 <= i < |bs[1..]| && i != s - 1
          ensures LookupList(bs[1..][i], key).None?
        {
          assert bs[1..][i] == bs[i + 1];
        }
      }
      LookupFlattenOnlyIn(bs[1..], key, s - 1);
    }
  }

  /** A key found in no bucket is not found in their concatenation. */
  lemma {:induction false} LookupFlattenNone<K, V>(bs: seq<seq<(K, V)>>, key: K)
    requires forall i :: 0 <= i < |bs| ==> LookupList(bs[i], key).None?
    ensures LookupList(Flatten(bs), key).None?
    decreases |bs|
  {
    if bs != [] {
      LookupAppend(bs[0], Flatten(bs[1..]), key);
      assert forall i :: 0 <= i < |bs[1..]| ==> LookupList(bs[1..][i], key).None? by {
        forall i | 0 <= i < |bs[1..]| ensures LookupList(bs[1..][i], key).None? {
          assert bs[1..][i] == bs[i + 1];
        }
      }
      LookupFlattenNone(bs[1..], key);
    }
  }

  /** Map lookup as an `Option`. */
  function Get<K, V>(m: map<K, V>, key: K): Option<V>
  {
    if key in m then Some(m[key]) else None
  }

  /** Two maps that answer every lookup alike are equal. */
  lemma MapsAgreeEverywhere<K, V>(m1: map<K, V>, m2: map<K, V>)
    requires forall k :: Get(m1, k) == Get(m2, k)
    ensures m1 == m2
  {
    assert forall k :: k in m1 <==> k in m2 by {
      forall k ensures k in m1 <==> k in m2 {
        assert Get(m1, k).Some? == Get(m2, k).Some?;
      }
    }
    assert m1.Keys == m2.Keys;
    forall k | k in m1 ensures m1[k] == m2[k] {
      assert Get(m1, k) == Get(m2, k);
    }
  }

  /** A subset as large as its superset is the whole superset. */
  lemma SubsetSameSizeEqual<T>(a: set<T>, b: set<T>)
    requires a <= b && |a| == |b|
    ensures a == b
  {
    assert b == a + (b - a);
    assert a * (b - a) == {};
    assert |b - a| == 0;
  }

  /** A table of empty buckets holds no entries. */
  lemma {:induction false} FlattenAllEmpty<T>(bs: seq<seq<T>>)
    requires forall i :: 0 <= i < |bs| ==> bs[i] == []
    ensures Flatten(bs) == []
    decreases |bs|
  {
    if bs != [] {
      assert forall i :: 0 <= i < |bs[1..]| ==> bs[1..][i] == [] by {
        forall i | 0 <= i < |bs[1..]| ensures bs[1..][i] == [] {
          assert bs[1..][i] == bs[i + 1];
        }
      }
      FlattenAllEmpty(bs[1..]);
    }
  }

  /** Overwriting the value of the entry at `idx` changes what its key finds and nothing else. */
  lemma LookupSetAt<K, V>(es: seq<(K, V)>, idx: nat, value: V, key: K)
    requires DistinctKeys(es)
    requires idx < |es|
    ensures LookupList(es[idx := (es[idx].0, value)], key)
         == if key == es[idx].0 then Some(value) else LookupList(es, key)
  {
    var k0 := es[idx].0;
    var pre, post := es[..idx], es[idx + 1..];
    assert es == pre + ([es[idx]] + post);
    assert es[idx := (k0, value)] == pre + ([(k0, value)] + post);
    LookupAppend(pre, [es[idx]] + post, key);
    LookupAppend(pre, [(k0, value)] + post, key);
    LookupAppend([es[idx]], post, key);
    LookupAppend([(k0, value)], post, key);
    if key == k0 {
      assert forall j :: 0 <= j < |pre| ==> pre[j].0 != key by {
        forall j | 0 <= j < |pre| ensures pre[j].0 != key {
          assert pre[j] == es[j];
        }
      }
      assert LookupList(pre, key).None?;
    }
  }
}

=== FILE: fractal.dfy ===
/**
 * The fractal boards: a square of `factor^dim` rows of `factor^dim`
 * characters, filled by recursive subdivision into `factor x factor`
 * sub-blocks, skipping the sub-blocks a per-type gap condition selects and
 * stamping the type's base pattern at every leaf.
 */
module Fractal {
  import opened Wrappers
  import Bits

  /** `SupportedTypes`. */
  datatype FractalType = SierpinskiCarpet | SierpinskiTriangle | VicsekFractal

  const CarpetDimFactor: nat := 3
  const CarpetFill: string := "###"
  const CarpetGap: string := "# #"
  const TriangleDimFactor: nat := 2
  const TriangleFill: string := "##"
  const TriangleGap: string := "# "
  const VicsekDimFactor: nat := 3
  const VicsekFill: string := "# #"
  const VicsekGap: string := " # "

  /** The two characters a board is drawn with. */
  const Filled: char := '#'
  const Blank: char := ' '

  /** The enumerator value of a type. */
  function Code(t: FractalType): (n: int)
    ensures 1 <= n <= 3
  {
    match t
    case SierpinskiCarpet => 1
    case SierpinskiTriangle => 2
    case VicsekFractal => 3
  }

  /** The `switch (type)` of `fractalFactory`: exactly the codes 1, 2 and 3 name a type. */
  function FromCode(n: int): (r: Option<FractalType>)
    ensures r.Some? <==> 1 <= n <= 3
    ensures r.Some? ==> Code(r.value) == n
  {
    if n == 1 then Some(SierpinskiCarpet)
    else if n == 2 then Some(SierpinskiTriangle)
    else if n == 3 then Some(VicsekFractal)
    else None
  }

  /** The side of the base pattern: carpet 3, triangle 2, Vicsek 3. */
  function DimFactor(t: FractalType): (f: nat)
    ensures f >= 2
  {
    match t
    case SierpinskiCarpet => CarpetDimFactor
    case SierpinskiTriangle => TriangleDimFactor
    case VicsekFractal => VicsekDimFactor
  }

  /** The rows `createBaseCase` writes, top to bottom. */
  function Pattern(t: FractalType): (p: seq<string>)
    ensures |p| == DimFactor(t)
    ensures forall k :: 0 <= k < |p| ==> |p[k]| == DimFactor(t)
    ensures forall k, c :: 0 <= k < |p| && 0 <= c < |p[k]| ==> p[k][c] == Filled || p[k][c] == Blank
  {
    match t
    case SierpinskiCarpet => [CarpetFill, CarpetGap, CarpetFill]
    case SierpinskiTriangle => [TriangleFill, TriangleGap]
    case VicsekFractal => [VicsekFill, VicsekGap, VicsekFill]
  }

  /**
   * `gapCondition(i, j, subSize)` on the offsets of a sub-block inside its
   * block: by default only the sub-block at `(subSize, subSize)`; for Vicsek
   * every off-diagonal sub-block on the middle row or column.
   */
  function Gap(t: FractalType, i: int, j: int, subSize: int): (skip: bool)
    ensures skip ==> i == subSize || j == subSize
    ensures i == subSize && j == subSize ==> (skip <==> t != VicsekFractal)
    ensures t != VicsekFractal && skip ==> i == j
  {
    match t
    case VicsekFractal => i != j && (i == subSize || j == subSize)
    case _ => i == subSize && j == subSize
  }

  /**
   * Which sub-blocks, by block row `a` and block column `b`, stay empty: the
   * centre one for the carpet, the bottom-right one for the triangle, and those
   * in exactly one of the middle row and the middle column for Vicsek.
   */
  predicate SkippedBlock(t: FractalType, a: nat, b: nat)
  {
    match t
    case VicsekFractal => (a == 1) != (b == 1)
    case _ => a == 1 && b == 1
  }

  /**
   * The base pattern is the skip rule at the smallest scale: a cell is blank
   * exactly when its one-cell block is skipped.
   */
  lemma PatternFollowsSkipRule(t: FractalType, x: nat, y: nat)
    requires x < DimFactor(t) && y < DimFactor(t)
    ensures Pattern(t)[x][y] == if SkippedBlock(t, x, y) then Blank else Filled
  {
  }

  /**
   * `k * s` written as `k` copies of `s` end to end; the block arithmetic below
   * uses it so that every proof about offsets stays linear.
   */
  function Scale(k: nat, s: nat): nat
    decreases k
  {
    if k == 0 then 0 else Scale(k - 1, s) + s
  }

  /** `Scale` is multiplication. */
  lemma {:induction false} ScaleIsProduct(k: nat, s: nat)
    ensures Scale(k, s) == k * s
    decreases k
  {
    if k > 0 {
      ScaleIsProduct(k - 1, s);
    }
  }

  /** Sub-block `a` ends no later than a later sub-block `b` starts. */
  lemma {:induction false} ScaleStrict(a: nat, b: nat, s: nat)
    requires a < b
    ensures Scale(a, s) + s <= Scale(b, s)
    decreases b
  {
    if a < b - 1 {
      ScaleStrict(a, b - 1, s);
    }
  }

  /** The gap condition on offsets is the skipped-block rule on block coordinates. */
  lemma GapOnBlocks(t: FractalType, a: nat, b: nat, sub: nat)
    requires sub >= 1
    ensures Gap(t, Scale(a, sub), Scale(b, sub), sub) <==> SkippedBlock(t, a, b)
  {
    assert Scale(1, sub) == sub;
    if a < b { ScaleStrict(a, b, sub); }
    if b < a { ScaleStrict(b, a, sub); }
    if a < 1 { ScaleStrict(a, 1, sub); }
    if 1 < a { ScaleStrict(1, a, sub); }
    if b < 1 { ScaleStrict(b, 1, sub); }
    if 1 < b { ScaleStrict(1, b, sub); }
  }

  /** The default rule skips only the centre block of a 3 x 3 split. */
  lemma DefaultGapSkipsOnlyCentre(a: nat, b: nat, sub: nat)
    requires sub >= 1
    ensures Gap(SierpinskiCarpet, Scale(a, sub), Scale(b, sub), sub) <==> (a, b) == (1, 1)
  {
    GapOnBlocks(SierpinskiCarpet, a, b, sub);
  }

  /** Vicsek keeps exactly the four corners and the centre of its 3 x 3 split. */
  lemma VicsekKeepsCornersAndCentre(a: nat, b: nat, sub: nat)
    requires sub >= 1 && a < 3 && b < 3
    ensures !Gap(VicsekFractal, Scale(a, sub), Scale(b, sub), sub) <==>
              (a != 1 && b != 1) || (a == 1 && b == 1)
  {
    GapOnBlocks(VicsekFractal, a, b, sub);
  }

  /** Integer power, standing in for the `pow` the constructor converts to `int`. */
  function Pow(base: nat, e: nat): (r: nat)
    ensures base >= 1 ==> r >= 1
    decreases e
  {
    if e == 0 then 1
    else
      var rest := Pow(base, e - 1);
      assert base >= 1 ==> Scale(base, rest) >= rest by {
        if base >= 1 { ScaleStrict(0, base, rest); }
      }
      Scale(base, rest)
  }

  /** The output board: one string per row. */
  type Board = seq<string>

  /** Every row is as long as there are rows. */
  ghost predicate IsSquare(board: Board)
  {
    forall k :: 0 <= k < |board| ==> |board[k]| == |board|
  }

  /** The constructor's `vector<string>(n, string(n, ' '))`. */
  function InitialBoard(n: nat): (board: Board)
    ensures |board| == n && IsSquare(board)
    ensures forall x, y :: 0 <= x < n && 0 <= y < n ==> board[x][y] == Blank
  {
    seq(n, _ => seq(n, _ => Blank))
  }

  /**
   * `s.replace(pos, count, pat)`: the `count` characters from `pos` (fewer at
   * the end of the string) give way to `pat`.
   */
  function Replace(s: string, pos: nat, count: nat, pat: string): (r: string)
    requires pos <= |s|
    ensures pos + count <= |s| ==> |r| == |s| - count + |pat|
    ensures pos + count > |s| ==> |r| == pos + |pat|
    ensures forall c :: 0 <= c < pos ==> r[c] == s[c]
    ensures forall c :: 0 <= c < |pat| ==> r[pos + c] == pat[c]
    ensures pos + count <= |s| ==> forall c :: pos + count <= c < |s| ==> r[c - count + |pat|] == s[c]
  {
    var end := if pos + count <= |s| then pos + count else |s|;
    s[..pos] + pat + s[end..]
  }

  /** The rows of `rows`, each `width` long, written over consecutive board rows from `row` at column `col`. */
  function StampRows(board: Board, row: nat, col: nat, width: nat, rows: seq<string>): (r: Board)
    requires IsSquare(board) && row + |rows| <= |board| && col + width <= |board|
    requires forall k :: 0 <= k < |rows| ==> |rows[k]| == width
    ensures |r| == |board| && IsSquare(r)
    decreases |rows|
  {
    if rows == [] then board
    else
      var next := board[row := Replace(board[row], col, width, rows[0])];
      StampRows(next, row + 1, col, width, rows[1..])
  }

  /** Stamping overwrites exactly the `|rows| x width` rectangle at `(row, col)`. */
  lemma {:induction false} StampRowsCell(board: Board, row: nat, col: nat, width: nat, rows: seq<string>, x: nat, y: nat)
    requires IsSquare(board) && row + |rows| <= |board| && col + width <= |board|
    requires forall k :: 0 <= k < |rows| ==> |rows[k]| == width
    requires x < |board| && y < |board|
    ensures StampRows(board, row, col, width, rows)[x][y] ==
              if row <= x < row + |rows| && col <= y < col + width then rows[x - row][y - col] else board[x][y]
    decreases |rows|
  {
    if rows != [] {
      var next := board[row := Replace(board[row], col, width, rows[0])];
      StampRowsCell(next, row + 1, col, width, rows[1..], x, y);
      if x == row && col <= y < col + width {
        assert next[x][col + (y - col)] == rows[0][y - col];
      }
    }
  }

  /** `createBaseCase(row, col)`: the type's pattern over the `factor x factor` square at `(row, col)`. */
  function CreateBaseCase(t: FractalType, row: nat, col: nat, board: Board): (r: Board)
    requires IsSquare(board) && row + DimFactor(t) <= |board| && col + DimFactor(t) <= |board|
    ensures |r| == |board| && IsSquare(r)
  {
    StampRows(board, row, col, DimFactor(t), Pattern(t))
  }

  /** The base case draws the pattern over its square and keeps every other cell. */
  lemma BaseCaseCell(t: FractalType, row: nat, col: nat, board: Board, x: nat, y: nat)
    requires IsSquare(board) && row + DimFactor(t) <= |board| && col + DimFactor(t) <= |board|
    requires x < |board| && y < |board|
    ensures CreateBaseCase(t, row, col, board)[x][y] ==
              if InSquare(x, y, row, col, DimFactor(t)) then Pattern(t)[x - row][y - col] else board[x][y]
  {
    StampRowsCell(board, row, col, DimFactor(t), Pattern(t), x, y);
  }

  /** The cell `(x, y)` lies in the `size x size` square at `(row, col)`. */
  predicate InSquare(x: nat, y: nat, row: nat, col: nat, size: nat)
  {
    row <= x < row + size && col <= y < col + size
  }

  /** Which sub-block of side `sub` holds offset `x`: how many whole sides fit below it. */
  function BlockIndex(x: nat, sub: nat): nat
    requires sub >= 1
    decreases x
  {
    if x < sub then 0 else 1 + BlockIndex(x - sub, sub)
  }

  /** Where offset `x` lies inside its sub-block of side `sub`. */
  function BlockOffset(x: nat, sub: nat): (u: nat)
    requires sub >= 1
    ensures u < sub && u <= x
    decreases x
  {
    if x < sub then x else BlockOffset(x - sub, sub)
  }

  /** Offset `x` is a whole number of sub-block sides: a sub-block starts there. */
  predicate AtCorner(x: nat, sub: nat)
    requires sub >= 1
  {
    BlockOffset(x, sub) == 0
  }

  /** Block index and offset are the quotient and remainder by `sub`. */
  lemma {:induction false} BlockCoordinates(a: nat, u: nat, sub: nat)
    requires sub >= 1 && u < sub
    ensures BlockIndex(Scale(a, sub) + u, sub) == a && BlockOffset(Scale(a, sub) + u, sub) == u
    decreases a
  {
    if a > 0 {
      BlockCoordinates(a - 1, u, sub);
      assert Scale(a, sub) + u - sub == Scale(a - 1, sub) + u;
    }
  }

  /** Every multiple of `sub` is a sub-block corner. */
  lemma {:induction false} ScaleAtCorner(k: nat, sub: nat)
    requires sub >= 1
    ensures AtCorner(Scale(k, sub), sub)
    decreases k
  {
    if k > 0 {
      ScaleAtCorner(k - 1, sub);
    }
  }

  /** Every sub-block corner is a multiple of `sub`. */
  lemma {:induction false} CornerIsScale(i: nat, sub: nat)
    requires sub >= 1 && AtCorner(i, sub)
    ensures Scale(BlockIndex(i, sub), sub) == i
    decreases i
  {
    if i >= sub {
      CornerIsScale(i - sub, sub);
    }
  }

  /** Below a block that is a whole number of sub-blocks, each sub-block fits entirely. */
  lemma {:induction false} CornerFits(i: nat, size: nat, sub: nat)
    requires sub >= 1 && AtCorner(i, sub) && AtCorner(size, sub) && i < size
    ensures i + sub <= size && AtCorner(i + sub, sub)
    decreases i
  {
    if i >= sub {
      CornerFits(i - sub, size - sub, sub);
    }
  }

  /** Block index and offset are the quotient and remainder of `x` by `sub`. */
  lemma BlockIsDivMod(x: nat, sub: nat)
    requires sub >= 1
    ensures BlockIndex(x, sub) == x / sub && BlockOffset(x, sub) == x % sub
  {
    var q, u := BlockIndex(x, sub), BlockOffset(x, sub);
    BlockSplit(x, sub);
    ScaleIsProduct(q, sub);
    Bits.DivModUnique(x, sub, q, u);
  }

  /** Every offset is its block's corner plus its offset in the block. */
  lemma {:induction false} BlockSplit(x: nat, sub: nat)
    requires sub >= 1
    ensures x == Scale(BlockIndex(x, sub), sub) + BlockOffset(x, sub)
    decreases x
  {
    if x >= sub {
      BlockSplit(x - sub, sub);
    }
  }

  /**
   * `build(dim, size, row, col)`: at dimension 1 stamp the base pattern;
   * above, split the `size = factor^dim` block into sub-blocks of side
   * `subSize = size / factor` and build every one the gap condition keeps, row
   * of sub-blocks by row.
   */
  function Build(t: FractalType, dim: nat, row: nat, col: nat, board: Board): (r: Board)
    requires dim >= 1
    requires IsSquare(board) && row + Pow(DimFactor(t), dim) <= |board| && col + Pow(DimFactor(t), dim) <= |board|
    ensures |r| == |board| && IsSquare(r)
    decreases dim, 1, 0, 0
  {
    if dim == 1 then CreateBaseCase(t, row, col, board)
    else
      var sub := Pow(DimFactor(t), dim - 1);
      ScaleAtCorner(DimFactor(t), sub);
      BuildBlocks(t, dim, Pow(DimFactor(t), dim), sub, row, col, 0, 0, board)
  }

  /**
   * The two loops of `build` from offsets `(i, j)` on: `i` steps by `sub` while
   * below `size`, and for each `i`, `j` does the same.
   */
  function BuildBlocks(t: FractalType, dim: nat, size: nat, sub: nat, row: nat, col: nat, i: nat, j: nat,
                       board: Board): (r: Board)
    requires dim >= 2 && size == Pow(DimFactor(t), dim) && sub == Pow(DimFactor(t), dim - 1) && AtCorner(size, sub)
    requires i <= size && j <= size && AtCorner(i, sub) && AtCorner(j, sub)
    requires IsSquare(board) && row + size <= |board| && col + size <= |board|
    ensures |r| == |board| && IsSquare(r)
    decreases dim, 0, size - i, size - j
  {
    if i >= size then board
    else if j >= size then
      CornerFits(i, size, sub);
      BuildBlocks(t, dim, size, sub, row, col, i + sub, 0, board)
    else
      CornerFits(i, size, sub);
      CornerFits(j, size, sub);
      BuildBlocks(t, dim, size, sub, row, col, i, j + sub, BuildSubBlock(t, dim, sub, row, col, i, j, board))
  }

  /**
   * One iteration of the inner loop of `build`: the sub-block at offsets
   * `(i, j)` is skipped if the gap condition holds and built one dimension down
   * otherwise.
   */
  function BuildSubBlock(t: FractalType, dim: nat, sub: nat, row: nat, col: nat, i: nat, j: nat,
                         board: Board): (r: Board)
    requires dim >= 2 && sub == Pow(DimFactor(t), dim - 1)
    requires IsSquare(board) && row + i + sub <= |board| && col + j + sub <= |board|
    ensures |r| == |board| && IsSquare(r)
    decreases dim, 0, 0, 0
  {
    if Gap(t, i, j, sub) then board
    else Build(t, dim - 1, row + i, col + j, board)
  }

  /** `Build` changes nothing outside its `factor^dim` block. */
  lemma {:induction false} BuildFrame(t: FractalType, dim: nat, row: nat, col: nat, board: Board, x: nat, y: nat)
    requires dim >= 1
    requires IsSquare(board) && row + Pow(DimFactor(t), dim) <= |board| && col + Pow(DimFactor(t), dim) <= |board|
    requires x < |board| && y < |board| && !InSquare(x, y, row, col, Pow(DimFactor(t), dim))
    ensures Build(t, dim, row, col, board)[x][y] == board[x][y]
    decreases dim, 1, 0, 0
  {
    if dim == 1 {
      assert Pow(DimFactor(t), 1) == Scale(DimFactor(t), 1);
      BaseCaseCell(t, row, col, board, x, y);
    } else {
      var sub := Pow(DimFactor(t), dim - 1);
      ScaleAtCorner(DimFactor(t), sub);
      BuildBlocksFrame(t, dim, Pow(DimFactor(t), dim), sub, row, col, 0, 0, board, x, y);
    }
  }

  /** The loops of `build` change nothing outside the block. */
  lemma {:induction false} BuildBlocksFrame(t: FractalType, dim: nat, size: nat, sub: nat, row: nat, col: nat,
                                            i: nat, j: nat, board: Board, x: nat, y: nat)
    requires dim >= 2 && size == Pow(DimFactor(t), dim) && sub == Pow(DimFactor(t), dim - 1) && AtCorner(size, sub)
    requires i <= size && j <= size && AtCorner(i, sub) && AtCorner(j, sub)
    requires IsSquare(board) && row + size <= |board| && col + size <= |board|
    requires x < |board| && y < |board| && !InSquare(x, y, row, col, size)
    ensures BuildBlocks(t, dim, size, sub, row, col, i, j, board)[x][y] == board[x][y]
    decreases dim, 0, size - i, size - j
  {
    if i >= size {
    } else if j >= size {
      CornerFits(i, size, sub);
      BuildBlocksFrame(t, dim, size, sub, row, col, i + sub, 0, board, x, y);
    } else {
      CornerFits(i, size, sub);
      CornerFits(j, size, sub);
      SubBlockFrame(t, dim, sub, row, col, i, j, board, x, y);
      BuildBlocksFrame(t, dim, size, sub, row, col, i, j + sub, BuildSubBlock(t, dim, sub, row, col, i, j, board), x, y);
    }
  }

  /** One sub-block step changes nothing outside its sub-block. */
  lemma {:induction false} SubBlockFrame(t: FractalType, dim: nat, sub: nat, row: nat, col: nat, i: nat, j: nat,
                                         board: Board, x: nat, y: nat)
    requires dim >= 2 && sub == Pow(DimFactor(t), dim - 1)
    requires IsSquare(board) && row + i + sub <= |board| && col + j + sub <= |board|
    requires x < |board| && y < |board| && !InSquare(x, y, row + i, col + j, sub)
    ensures BuildSubBlock(t, dim, sub, row, col, i, j, board)[x][y] == board[x][y]
    decreases dim, 0, 0, 1
  {
    if !Gap(t, i, j, sub) {
      BuildFrame(t, dim - 1, row + i, col + j, board, x, y);
    }
  }

  /** A character of a pattern cell over what is underneath: `None` keeps the board. */
  function Overlay(cell: Option<char>, under: char): char
  {
    match cell
    case None => under
    case Some(ch) => ch
  }

  /**
   * Reference definition of the fractal, cell by cell: in the `factor^dim`
   * square, cell `(x, y)` sits in sub-block `(x / sub, y / sub)`; it is empty
   * (`None`) if that sub-block is skipped, and otherwise is the cell
   * `(x % sub, y % sub)` of the fractal one dimension down; at dimension 1 it is
   * the base pattern's character.
   */
  ghost function Cell(t: FractalType, dim: nat, x: nat, y: nat): (cell: Option<char>)
    requires dim >= 1 && x < Pow(DimFactor(t), dim) && y < Pow(DimFactor(t), dim)
    ensures cell.Some? ==> cell.value == Filled || cell.value == Blank
    decreases dim
  {
    if dim == 1 then Some(if SkippedBlock(t, x, y) then Blank else Filled)
    else
      var sub := Pow(DimFactor(t), dim - 1);
      if SkippedBlock(t, BlockIndex(x, sub), BlockIndex(y, sub)) then None
      else Cell(t, dim - 1, BlockOffset(x, sub), BlockOffset(y, sub))
  }

  /**
   * Inside sub-block `(a, b)`, whose corner is at offsets `(i, j)`, the
   * reference fractal is the one a dimension down, or empty if the block is
   * skipped.
   */
  lemma SubBlockCell(t: FractalType, dim: nat, a: nat, b: nat, i: nat, j: nat, u: nat, v: nat)
    requires dim >= 2 && i + u < Pow(DimFactor(t), dim) && j + v < Pow(DimFactor(t), dim)
    requires var sub := Pow(DimFactor(t), dim - 1);
             i == Scale(a, sub) && j == Scale(b, sub) && u < sub && v < sub
    ensures Cell(t, dim, i + u, j + v) == if SkippedBlock(t, a, b) then None else Cell(t, dim - 1, u, v)
  {
    var sub := Pow(DimFactor(t), dim - 1);
    BlockCoordinates(a, u, sub);
    BlockCoordinates(b, v, sub);
  }

  /**
   * The same, read at the sub-block's corner offsets `(i, j)` as `build` sees
   * them: the gap condition on the corner decides.
   */
  lemma CellAtCorner(t: FractalType, dim: nat, i: nat, j: nat, u: nat, v: nat)
    requires dim >= 2 && i + u < Pow(DimFactor(t), dim) && j + v < Pow(DimFactor(t), dim)
    requires var sub := Pow(DimFactor(t), dim - 1);
             AtCorner(i, sub) && AtCorner(j, sub) && u < sub && v < sub
    ensures Cell(t, dim, i + u, j + v) ==
              if Gap(t, i, j, Pow(DimFactor(t), dim - 1)) then None else Cell(t, dim - 1, u, v)
  {
    var sub := Pow(DimFactor(t), dim - 1);
    var a, b := BlockIndex(i, sub), BlockIndex(j, sub);
    CornerIsScale(i, sub);
    CornerIsScale(j, sub);
    GapOnBlocks(t, a, b, sub);
    SubBlockCell(t, dim, a, b, i, j, u, v);
  }

  /** `Build` draws the reference fractal over its block. */
  lemma {:induction false} BuildDrawsCells(t: FractalType, dim: nat, row: nat, col: nat, board: Board, x: nat, y: nat,
                                           r: Board)
    requires dim >= 1
    requires IsSquare(board) && row + Pow(DimFactor(t), dim) <= |board| && col + Pow(DimFactor(t), dim) <= |board|
    requires x < Pow(DimFactor(t), dim) && y < Pow(DimFactor(t), dim)
    requires r == Build(t, dim, row, col, board)
    ensures r[row + x][col + y] == Overlay(Cell(t, dim, x, y), board[row + x][col + y])
    decreases dim, 1, 0, 0
  {
    if dim == 1 {
      BaseDrawsCells(t, row, col, board, x, y, r);
    } else {
      var sub := Pow(DimFactor(t), dim - 1);
      ScaleAtCorner(DimFactor(t), sub);
      BuildBlocksDrawCells(t, dim, Pow(DimFactor(t), dim), sub, row, col, 0, 0, board, x, y, r);
    }
  }

  /** At dimension 1 `Build` is the base case, which draws the reference cells. */
  lemma BaseDrawsCells(t: FractalType, row: nat, col: nat, board: Board, x: nat, y: nat, r: Board)
    requires IsSquare(board) && row + Pow(DimFactor(t), 1) <= |board| && col + Pow(DimFactor(t), 1) <= |board|
    requires x < Pow(DimFactor(t), 1) && y < Pow(DimFactor(t), 1)
    requires r == Build(t, 1, row, col, board)
    ensures r[row + x][col + y] == Overlay(Cell(t, 1, x, y), board[row + x][col + y])
  {
    assert Pow(DimFactor(t), 1) == Scale(DimFactor(t), 1);
    assert r == CreateBaseCase(t, row, col, board);
    BaseCaseCell(t, row, col, board, row + x, col + y);
    PatternFollowsSkipRule(t, x, y);
  }

  /**
   * Offset `(x, y)` lies in a sub-block the loops reach before the one at
   * `(i, j)`: an earlier row of sub-blocks, or the same row and an earlier
   * column.
   */
  predicate Before(x: nat, y: nat, i: nat, j: nat, sub: nat)
  {
    x < i || (x < i + sub && y < j)
  }

  /**
   * From offsets `(i, j)` on, the loops, producing `r`, draw the reference
   * fractal in every later sub-block and leave the earlier ones as they were.
   */
  lemma {:induction false} BuildBlocksDrawCells(t: FractalType, dim: nat, size: nat, sub: nat, row: nat, col: nat,
                                                i: nat, j: nat, board: Board, x: nat, y: nat, r: Board)
    requires dim >= 2 && size == Pow(DimFactor(t), dim) && sub == Pow(DimFactor(t), dim - 1) && AtCorner(size, sub)
    requires i <= size && j <= size && AtCorner(i, sub) && AtCorner(j, sub)
    requires IsSquare(board) && row + size <= |board| && col + size <= |board|
    requires x < size && y < size
    requires r == BuildBlocks(t, dim, size, sub, row, col, i, j, board)
    ensures r[row + x][col + y] ==
              if Before(x, y, i, j, sub) then board[row + x][col + y]
              else Overlay(Cell(t, dim, x, y), board[row + x][col + y])
    decreases dim, 0, size - i, size - j, 1
  {
    if i >= size {
    } else if j >= size {
      RowEndDrawsCells(t, dim, size, sub, row, col, i, j, board, x, y, r);
    } else {
      StepDrawsCells(t, dim, size, sub, row, col, i, j, board, x, y, r);
    }
  }

  /** At the end of a row of sub-blocks the loops carry on from the next row. */
  lemma {:induction false} RowEndDrawsCells(t: FractalType, dim: nat, size: nat, sub: nat, row: nat, col: nat,
                                            i: nat, j: nat, board: Board, x: nat, y: nat, r: Board)
    requires dim >= 2 && size == Pow(DimFactor(t), dim) && sub == Pow(DimFactor(t), dim - 1) && AtCorner(size, sub)
    requires i < size && j == size && AtCorner(i, sub)
    requires IsSquare(board) && row + size <= |board| && col + size <= |board|
    requires x < size && y < size
    requires r == BuildBlocks(t, dim, size, sub, row, col, i, j, board)
    ensures r[row + x][col + y] ==
              if Before(x, y, i, j, sub) then board[row + x][col + y]
              else Overlay(Cell(t, dim, x, y), board[row + x][col + y])
    decreases dim, 0, size - i, size - j, 0
  {
    CornerFits(i, size, sub);
    ScaleAtCorner(0, sub);
    BuildBlocksDrawCells(t, dim, size, sub, row, col, i + sub, 0, board, x, y, r);
  }

  /** One sub-block step followed by the rest of the loops. */
  lemma {:induction false} StepDrawsCells(t: FractalType, dim: nat, size: nat, sub: nat, row: nat, col: nat,
                                          i: nat, j: nat, board: Board, x: nat, y: nat, r: Board)
    requires dim >= 2 && size == Pow(DimFactor(t), dim) && sub == Pow(DimFactor(t), dim - 1) && AtCorner(size, sub)
    requires i < size && j < size && AtCorner(i, sub) && AtCorner(j, sub)
    requires IsSquare(board) && row + size <= |board| && col + size <= |board|
    requires x < size && y < size
    requires r == BuildBlocks(t, dim, size, sub, row, col, i, j, board)
    ensures r[row + x][col + y] ==
              if Before(x, y, i, j, sub) then board[row + x][col + y]
              else Overlay(Cell(t, dim, x, y), board[row + x][col + y])
    decreases dim, 0, size - i, size - j, 0
  {
    CornerFits(i, size, sub);
    CornerFits(j, size, sub);
    var next := BuildSubBlock(t, dim, sub, row, col, i, j, board);
    BuildBlocksDrawCells(t, dim, size, sub, row, col, i, j + sub, next, x, y, r);
    SubBlockDrawsCells(t, dim, sub, row, col, i, j, board, x, y, next);
    StepCombines(x, y, i, j, sub, Cell(t, dim, x, y), board[row + x][col + y], next[row + x][col + y],
                 r[row + x][col + y]);
  }

  /**
   * A cell the sub-block at `(i, j)` drew, seen after the later sub-blocks:
   * it was reached from `(i, j)` on exactly when it was drawn there or later.
   */
  lemma StepCombines(x: nat, y: nat, i: nat, j: nat, sub: nat, cell: Option<char>, under: char, drawn: char,
                     final: char)
    requires drawn == if InSquare(x, y, i, j, sub) then Overlay(cell, under) else under
    requires final == if Before(x, y, i, j + sub, sub) then drawn else Overlay(cell, drawn)
    ensures final == if Before(x, y, i, j, sub) then under else Overlay(cell, under)
  {
  }

  /**
   * One sub-block step, producing `r`, draws the reference fractal inside its
   * sub-block and nothing elsewhere.
   */
  lemma {:induction false} SubBlockDrawsCells(t: FractalType, dim: nat, sub: nat, row: nat, col: nat, i: nat, j: nat,
                                              board: Board, x: nat, y: nat, r: Board)
    requires dim >= 2 && sub == Pow(DimFactor(t), dim - 1) && AtCorner(i, sub) && AtCorner(j, sub)
    requires IsSquare(board) && row + i + sub <= |board| && col + j + sub <= |board|
    requires x < Pow(DimFactor(t), dim) && y < Pow(DimFactor(t), dim) && row + x < |board| && col + y < |board|
    requires r == BuildSubBlock(t, dim, sub, row, col, i, j, board)
    ensures r[row + x][col + y] ==
              if InSquare(x, y, i, j, sub) then Overlay(Cell(t, dim, x, y), board[row + x][col + y])
              else board[row + x][col + y]
    decreases dim, 0, 0, 3
  {
    if InSquare(x, y, i, j, sub) {
      var u, v := x - i, y - j;
      SubBlockDrawsAt(t, dim, sub, row, col, i, j, board, u, v, r);
      assert i + u == x && j + v == y;
    } else {
      SubBlockFrame(t, dim, sub, row, col, i, j, board, row + x, col + y);
    }
  }

  /** Cell `(u, v)` of the sub-block at corner `(i, j)` is the reference fractal's. */
  lemma {:induction false} SubBlockDrawsAt(t: FractalType, dim: nat, sub: nat, row: nat, col: nat, i: nat, j: nat,
                                           board: Board, u: nat, v: nat, r: Board)
    requires dim >= 2 && sub == Pow(DimFactor(t), dim - 1) && AtCorner(i, sub) && AtCorner(j, sub) && u < sub && v < sub
    requires IsSquare(board) && row + i + sub <= |board| && col + j + sub <= |board|
    requires i + u < Pow(DimFactor(t), dim) && j + v < Pow(DimFactor(t), dim)
    requires r == BuildSubBlock(t, dim, sub, row, col, i, j, board)
    ensures r[row + i + u][col + j + v] == Overlay(Cell(t, dim, i + u, j + v), board[row + i + u][col + j + v])
    decreases dim, 0, 0, 2
  {
    CellAtCorner(t, dim, i, j, u, v);
    if !Gap(t, i, j, sub) {
      SubBlockKeptDraws(t, dim, sub, row, col, i, j, board, u, v, r);
    } else {
      SubBlockSkipped(t, dim, sub, row, col, i, j, board, r);
    }
  }

  /** A kept sub-block holds the fractal one dimension down. */
  lemma {:induction false} SubBlockKeptDraws(t: FractalType, dim: nat, sub: nat, row: nat, col: nat, i: nat, j: nat,
                                             board: Board, u: nat, v: nat, r: Board)
    requires dim >= 2 && sub == Pow(DimFactor(t), dim - 1) && !Gap(t, i, j, sub) && u < sub && v < sub
    requires IsSquare(board) && row + i + sub <= |board| && col + j + sub <= |board|
    requires r == BuildSubBlock(t, dim, sub, row, col, i, j, board)
    ensures r[row + i + u][col + j + v] == Overlay(Cell(t, dim - 1, u, v), board[row + i + u][col + j + v])
    decreases dim, 0, 0, 1
  {
    SubBlockKept(t, dim, sub, row, col, i, j, board, r);
    BuildDrawsCells(t, dim - 1, row + i, col + j, board, u, v, r);
  }

  /** A skipped sub-block leaves the board as it was. */
  lemma SubBlockSkipped(t: FractalType, dim: nat, sub: nat, row: nat, col: nat, i: nat, j: nat, board: Board, r: Board)
    requires dim >= 2 && sub == Pow(DimFactor(t), dim - 1) && Gap(t, i, j, sub)
    requires IsSquare(board) && row + i + sub <= |board| && col + j + sub <= |board|
    requires r == BuildSubBlock(t, dim, sub, row, col, i, j, board)
    ensures r == board
  {
  }

  /** A sub-block the gap condition keeps is built one dimension down at its corner. */
  lemma SubBlockKept(t: FractalType, dim: nat, sub: nat, row: nat, col: nat, i: nat, j: nat, board: Board, r: Board)
    requires dim >= 2 && sub == Pow(DimFactor(t), dim - 1) && !Gap(t, i, j, sub)
    requires IsSquare(board) && row + i + sub <= |board| && col + j + sub <= |board|
    requires r == BuildSubBlock(t, dim, sub, row, col, i, j, board)
    ensures r == Build(t, dim - 1, row + i, col + j, board)
  {
  }

  /** `new SierpinskiCarpet(dim)` and its siblings: build over a blank `factor^dim` board. */
  function NewFractal(t: FractalType, dim: nat): (board: Board)
    requires dim >= 1
    ensures |board| == Pow(DimFactor(t), dim) && IsSquare(board)
  {
    var n := Pow(DimFactor(t), dim);
    Build(t, dim, 0, 0, InitialBoard(n))
  }

  /** A finished board is the reference fractal over blanks, so every cell is `'#'` or `' '`. */
  lemma NewFractalCells(t: FractalType, dim: nat, x: nat, y: nat)
    requires dim >= 1 && x < Pow(DimFactor(t), dim) && y < Pow(DimFactor(t), dim)
    ensures NewFractal(t, dim)[x][y] == Overlay(Cell(t, dim, x, y), Blank)
    ensures NewFractal(t, dim)[x][y] == Filled || NewFractal(t, dim)[x][y] == Blank
  {
    var n := Pow(DimFactor(t), dim);
    var blank := InitialBoard(n);
    var board := NewFractal(t, dim);
    BuildDrawsCells(t, dim, 0, 0, blank, x, y, board);
    assert blank[x][y] == Blank;
    var cell := Cell(t, dim, x, y);
    assert board[x][y] == Overlay(cell, Blank);
  }

  /** Every cell of a skipped sub-block of a finished board is `' '`. */
  lemma SkippedBlocksBlank(t: FractalType, dim: nat, x: nat, y: nat)
    requires dim >= 2 && x < Pow(DimFactor(t), dim) && y < Pow(DimFactor(t), dim)
    requires var sub := Pow(DimFactor(t), dim - 1);
             SkippedBlock(t, BlockIndex(x, sub), BlockIndex(y, sub))
    ensures NewFractal(t, dim)[x][y] == Blank
  {
    NewFractalCells(t, dim, x, y);
  }

  /** At dimension 1 each fractal is its base pattern. */
  lemma DimensionOneBoards()
    ensures NewFractal(SierpinskiCarpet, 1) == ["###", "# #", "###"]
    ensures NewFractal(SierpinskiTriangle, 1) == ["##", "# "]
    ensures NewFractal(VicsekFractal, 1) == ["# #", " # ", "# #"]
  {
    forall t: FractalType ensures NewFractal(t, 1) == Pattern(t) {
      var board := NewFractal(t, 1);
      var p := Pattern(t);
      forall x | 0 <= x < |p| ensures board[x] == p[x] {
        forall y | 0 <= y < |p[x]| ensures board[x][y] == p[x][y] {
          NewFractalCells(t, 1, x, y);
          PatternFollowsSkipRule(t, x, y);
        }
      }
    }
  }
}

=== FILE: fractaldrawer.dfy ===
/**
 * The command-file side of the fractal drawer: the path suffix check, the
 * per-line column rules, the type and dimension checks of the factory, and
 * the order in which the finished boards are printed.
 */
module FractalDrawer {
  import opened Wrappers
  import opened Text
  import opened Tokenizer
  import opened Fractal

  const LowerSuffix: string := ".csv"
  const UpperSuffix: string := ".CSV"
  const ColumnSeparator: char := ','
  const ValidColsNum: nat := 2
  const FractalTypeCol: nat := 1
  const FractalDimCol: nat := 2
  const ColWithSpaceAllowed: nat := 2
  const MinDim: int := 1
  const MaxDim: int := 6

  /** How a command line stops the program. */
  datatype Failure =
    | InvalidInput             // "Invalid input" on stderr and `EXIT_FAILURE`
    | UncaughtInvalidArgument  // `std::stoi` throws and nothing catches it

  /** `hasSuffix(str, suffix)`. */
  function HasSuffix(str: string, suffix: string): (r: bool)
    ensures r <==> exists p :: p + suffix == str
  {
    assert forall p :: p + suffix == str ==> str[|p|..] == suffix;
    var ok := |str| >= |suffix| && str[|str| - |suffix|..] == suffix;
    assert ok ==> str[..|str| - |suffix|] + suffix == str;
    ok
  }

  /** The suffix part of `validateCommandFilePath`: the path ends in `.csv` or `.CSV`. */
  function ValidCommandFileSuffix(path: string): (ok: bool)
    ensures ok <==> exists p :: p + LowerSuffix == path || p + UpperSuffix == path
  {
    HasSuffix(path, LowerSuffix) || HasSuffix(path, UpperSuffix)
  }

  /** Any file name with one of the two suffixes is accepted, and no shorter path is. */
  lemma CommandFileSuffixes(name: string, path: string)
    ensures ValidCommandFileSuffix(name + LowerSuffix) && ValidCommandFileSuffix(name + UpperSuffix)
    ensures |path| < |LowerSuffix| ==> !ValidCommandFileSuffix(path)
    ensures ValidCommandFileSuffix(path) ==> path[|path| - 4..] == LowerSuffix || path[|path| - 4..] == UpperSuffix
  {
    assert HasSuffix(name + LowerSuffix, LowerSuffix);
    assert HasSuffix(name + UpperSuffix, UpperSuffix);
  }

  /** `isDigit(s)`: every character is a decimal digit. */
  function IsDigit(s: string): (r: bool)
    ensures r <==> AllDigits(s)
    decreases |s|
  {
    if s == [] then true
    else
      var rest := IsDigit(s[1..]);
      assert AllDigits(s) <==> IsDigitChar(s[0]) && AllDigits(s[1..]) by {
        assert forall i :: 1 <= i < |s| ==> s[i] == s[1..][i - 1];
      }
      IsDigitChar(s[0]) && rest
  }

  /** `isDigit` as the source writes it: a scan that stops at the first non-digit. */
  method ScanDigits(s: string) returns (r: bool)
    ensures r == IsDigit(s)
  {
    var k := 0;
    while k < |s|
      invariant k <= |s|
      invariant AllDigits(s[..k])
    {
      if !IsDigitChar(s[k]) {
        return false;
      }
      assert s[..k + 1] == s[..k] + [s[k]];
      k := k + 1;
    }
    assert s[..k] == s;
    return true;
  }

  /**
   * `colValValid(s, col)`: the value is all digits, except that in the
   * dimension column one trailing space is allowed.
   */
  function ColValValid(s: string, col: int): (ok: bool)
    requires s != []
    ensures ok <==> AllDigits(s) || (col == ColWithSpaceAllowed && s[|s| - 1] == ' ' && AllDigits(s[..|s| - 1]))
  {
    if col == ColWithSpaceAllowed && s[|s| - 1] == ' ' then
      assert !IsDigitChar(s[|s| - 1]);
      IsDigit(s[..|s| - 1])
    else
      IsDigit(s)
  }

  /**
   * What `parseFileLine` leaves in its two out-parameters: the type is unset
   * when the line has no column, and the dimension starts at 0.
   */
  datatype Command = Command(fractalType: Option<int>, dim: int)

  /** The loop of `parseFileLine` from column `columnIdx` on. */
  function ParseColumns(tokens: seq<string>, columnIdx: nat, cmd: Command): (r: Result<Command, Failure>)
    requires 1 <= columnIdx <= ValidColsNum + 1
    requires forall k :: 0 <= k < |tokens| ==> tokens[k] != []
    ensures r.Ok? ==> columnIdx + |tokens| <= ValidColsNum + 1
    ensures r.Ok? ==> forall k :: 0 <= k < |tokens| ==> ColValValid(tokens[k], columnIdx + k)
    ensures columnIdx + |tokens| > ValidColsNum + 1 ==> r.Err?
    decreases |tokens|
  {
    if tokens == [] then Ok(cmd)
    else
      var colVal := tokens[0];
      if columnIdx > ValidColsNum || !ColValValid(colVal, columnIdx) then Err(InvalidInput)
      else
        match StoI(colVal)
        case None => Err(UncaughtInvalidArgument)
        case Some(v) =>
          var next := if columnIdx == FractalTypeCol then cmd.(fractalType := Some(v)) else cmd.(dim := v);
          var r := ParseColumns(tokens[1..], columnIdx + 1, next);
          assert r.Ok? ==> forall k :: 1 <= k < |tokens| ==> tokens[k] == tokens[1..][k - 1];
          r
  }

  /** `parseFileLine`: split on `','` dropping empty columns, then check and convert each. */
  function ParseFileLine(line: string): (r: Result<Command, Failure>)
    ensures r.Ok? ==> |SplitDrop(line, ColumnSeparator)| <= ValidColsNum
    ensures |SplitDrop(line, ColumnSeparator)| > ValidColsNum ==> r.Err?
    ensures r.Ok? ==> (r.value.fractalType.None? <==> SplitDrop(line, ColumnSeparator) == [])
    ensures r.Ok? && |SplitDrop(line, ColumnSeparator)| < ValidColsNum ==> r.value.dim == 0
  {
    var tokens := SplitDrop(line, ColumnSeparator);
    var r := ParseColumns(tokens, 1, Command(None, 0));
    assert r.Ok? ==> |tokens| <= 2;
    if r.Ok? && |tokens| >= 1 then
      ParseColumnsSetsType(tokens, Command(None, 0));
      r
    else
      r
  }

  /** A first column that passes its check sets the type; without a second column the dimension stays as it was. */
  lemma ParseColumnsSetsType(tokens: seq<string>, cmd: Command)
    requires 1 <= |tokens| <= 2
    requires forall k :: 0 <= k < |tokens| ==> tokens[k] != []
    requires ParseColumns(tokens, 1, cmd).Ok?
    ensures ParseColumns(tokens, 1, cmd).value.fractalType.Some?
    ensures |tokens| == 1 ==> ParseColumns(tokens, 1, cmd).value.dim == cmd.dim
  {
    var v := StoI(tokens[0]).value;
    var next := cmd.(fractalType := Some(v));
    var rest := tokens[1..];
    assert ParseColumns(tokens, 1, cmd) == ParseColumns(rest, 2, next);
    if |tokens| == 2 {
      var noMore: seq<string> := [];
      assert |rest| == 1 && rest[1..] == noMore;
      var w := StoI(rest[0]).value;
      assert ParseColumns(rest, 2, next) == ParseColumns(noMore, 3, next.(dim := w));
    } else {
      assert rest == [];
    }
  }

  /** `type,dim` with two digit strings parses to their values, with or without one space after `dim`. */
  lemma ParseTwoColumns(a: string, b: string, trailing: string)
    requires a != [] && AllDigits(a) && b != [] && AllDigits(b)
    requires trailing == [] || trailing == " "
    ensures ParseFileLine(a + [ColumnSeparator] + b + trailing) ==
              Ok(Command(Some(DecimalValue(a) as int), DecimalValue(b) as int))
  {
    var d := b + trailing;
    assert a + [ColumnSeparator] + b + trailing == a + [ColumnSeparator] + d;
    var tokens := TwoColumnTokens(a, d);
    StoIOfDigits(a);
    StoIDigitsThen(b, trailing);
    if trailing == " " {
      assert d[..|d| - 1] == b;
    }
    var next := Command(Some(DecimalValue(a) as int), 0);
    ParseColumnsStep(tokens, 1, Command(None, 0));
    assert tokens[1..] == [d];
    ParseColumnsStep([d], 2, next);
    assert [d][1..] == [];
  }

  /** A column that passes its check and converts is stored, and the loop moves on. */
  lemma ParseColumnsStep(tokens: seq<string>, columnIdx: nat, cmd: Command)
    requires 1 <= columnIdx <= ValidColsNum && tokens != []
    requires forall k :: 0 <= k < |tokens| ==> tokens[k] != []
    requires ColValValid(tokens[0], columnIdx) && StoI(tokens[0]).Some?
    ensures var v := StoI(tokens[0]).value;
            ParseColumns(tokens, columnIdx, cmd) ==
              ParseColumns(tokens[1..], columnIdx + 1,
                           if columnIdx == FractalTypeCol then cmd.(fractalType := Some(v)) else cmd.(dim := v))
  {
  }

  /** A comma between two comma-free, non-empty columns splits into exactly those two. */
  lemma TwoColumnTokens(a: string, d: string) returns (tokens: seq<string>)
    requires a != [] && d != [] && ColumnSeparator !in a && ColumnSeparator !in d
    ensures tokens == SplitDrop(a + [ColumnSeparator] + d, ColumnSeparator) == [a, d]
  {
    var parts := [a, d];
    assert Join(parts, ColumnSeparator) == a + [ColumnSeparator] + d by {
      assert parts[1..] == [d];
    }
    SplitKeepJoin(parts, ColumnSeparator);
    var noMore: seq<string> := [];
    assert parts[1..] == [d] && [d][1..] == noMore;
    assert NonEmpty([d]) == [d] + NonEmpty(noMore);
    assert NonEmpty(parts) == [a] + NonEmpty([d]);
    tokens := SplitDrop(a + [ColumnSeparator] + d, ColumnSeparator);
  }

  /** A space is allowed after the type only in the dimension column: there it is rejected. */
  lemma SpaceAfterTypeRejected(a: string, b: string)
    requires a != [] && AllDigits(a) && b != [] && AllDigits(b)
    ensures ParseFileLine(a + " " + [ColumnSeparator] + b) == Err(InvalidInput)
  {
    var c := a + " ";
    assert a + " " + [ColumnSeparator] + b == c + [ColumnSeparator] + b;
    var tokens := TwoColumnTokens(c, b);
    assert !IsDigitChar(c[|c| - 1]);
  }

  /**
   * A dimension column holding only a space passes `colValValid` (the digit
   * check sees the empty string) and then makes `stoi` throw.
   */
  lemma BlankDimensionThrows(a: string)
    requires a != [] && AllDigits(a)
    ensures ParseFileLine(a + [ColumnSeparator] + " ") == Err(UncaughtInvalidArgument)
  {
    var tokens := TwoColumnTokens(a, " ");
    StoIOfDigits(a);
    assert " "[..0] == [];
    assert StoI(" ") == None by {
      assert LeadingSpaces(" ") == 1;
      assert " "[1..] == [];
    }
    var next := Command(Some(DecimalValue(a) as int), 0);
    assert [a, " "][1..] == [" "];
    assert ParseColumns([a, " "], 1, Command(None, 0)) == ParseColumns([" "], 2, next);
  }

  /** What `fractalFactory` pushes: a fractal of a supported type and dimension. */
  datatype Request = Request(fractalType: FractalType, dim: nat)

  /**
   * `fractalFactory`: a dimension outside `[1, 6]` or an unsupported type
   * code is invalid input; otherwise exactly one fractal of that type and
   * dimension. The type is read only once the dimension is in range.
   */
  function FractalFactory(cmd: Command): (r: Result<Request, Failure>)
    requires MinDim <= cmd.dim <= MaxDim ==> cmd.fractalType.Some?
    ensures r.Ok? <==> MinDim <= cmd.dim <= MaxDim && 1 <= cmd.fractalType.value <= 3
    ensures r.Ok? ==> Code(r.value.fractalType) == cmd.fractalType.value && r.value.dim == cmd.dim
    ensures r.Err? ==> r.error == InvalidInput
  {
    if cmd.dim < MinDim || cmd.dim > MaxDim then Err(InvalidInput)
    else
      match FromCode(cmd.fractalType.value)
      case None => Err(InvalidInput)
      case Some(t) => Ok(Request(t, cmd.dim))
  }

  /** A parsed line always meets the factory's demand on the type. */
  lemma ParsedLineFitsFactory(line: string)
    requires ParseFileLine(line).Ok?
    ensures var cmd := ParseFileLine(line).value;
            MinDim <= cmd.dim <= MaxDim ==> cmd.fractalType.Some?
  {
  }

  /**
   * One line of the command file: parse it, then hand it to the factory. A
   * line without exactly two columns never yields a fractal: a third column is
   * refused by the parser, and a missing one leaves the dimension at 0.
   */
  function ProcessLine(line: string): (r: Result<Request, Failure>)
    ensures r.Ok? ==> MinDim <= r.value.dim <= MaxDim
    ensures |SplitDrop(line, ColumnSeparator)| != ValidColsNum ==> r.Err?
  {
    match ParseFileLine(line)
    case Err(e) => Err(e)
    case Ok(cmd) => FractalFactory(cmd)
  }

  /** A `type,dim` line of digits yields a fractal exactly when the type code is 1..3 and the dimension 1..6. */
  lemma ProcessTwoColumns(a: string, b: string, trailing: string)
    requires a != [] && AllDigits(a) && b != [] && AllDigits(b)
    requires trailing == [] || trailing == " "
    ensures var r := ProcessLine(a + [ColumnSeparator] + b + trailing);
            && (r.Ok? <==> 1 <= DecimalValue(a) <= 3 && 1 <= DecimalValue(b) <= 6)
            && (r.Ok? ==> Code(r.value.fractalType) == DecimalValue(a) as int && r.value.dim == DecimalValue(b))
            && (r.Err? ==> r.error == InvalidInput)
  {
    ParseTwoColumns(a, b, trailing);
  }

  /**
   * The `getline` loop of `processCommandFile` over lines already read: the
   * first failing line stops the program, otherwise one fractal per line.
   */
  function ProcessCommandLines(lines: seq<string>): (r: Result<seq<Request>, Failure>)
    ensures r.Ok? <==> forall k :: 0 <= k < |lines| ==> ProcessLine(lines[k]).Ok?
    ensures r.Ok? ==> |r.value| == |lines| && forall k :: 0 <= k < |lines| ==> ProcessLine(lines[k]) == Ok(r.value[k])
    ensures r.Err? ==> exists k :: 0 <= k < |lines| && ProcessLine(lines[k]) == Err(r.error) &&
                                   forall m :: 0 <= m < k ==> ProcessLine(lines[m]).Ok?
  {
    MapResults(ProcessLine, lines)
  }

  /** The board each pushed fractal holds once constructed. */
  function Draw(req: Request): (board: Board)
    requires req.dim >= 1
    ensures |board| == Pow(DimFactor(req.fractalType), req.dim) && IsSquare(board)
  {
    NewFractal(req.fractalType, req.dim)
  }

  /** The reversal `outputFractals` walks with `rbegin`/`rend`. */
  function Reverse<T>(s: seq<T>): (r: seq<T>)
    ensures |r| == |s|
    ensures forall k :: 0 <= k < |s| ==> r[k] == s[|s| - 1 - k]
    decreases |s|
  {
    if s == [] then [] else Reverse(s[1..]) + [s[0]]
  }

  /** `outputFractals`: the boards in the reverse of the order the lines asked for them. */
  method OutputFractals(reqs: seq<Request>) returns (printed: seq<Board>)
    requires forall k :: 0 <= k < |reqs| ==> reqs[k].dim >= 1
    ensures |printed| == |reqs|
    ensures forall k :: 0 <= k < |reqs| ==> printed[k] == Draw(reqs[|reqs| - 1 - k])
    ensures forall k :: 0 <= k < |reqs| ==> printed[k] == Draw(Reverse(reqs)[k])
  {
    printed := [];
    var it := |reqs|;
    while it > 0
      invariant 0 <= it <= |reqs|
      invariant |printed| == |reqs| - it
      invariant forall k :: 0 <= k < |printed| ==> printed[k] == Draw(reqs[|reqs| - 1 - k])
    {
      it := it - 1;
      printed := printed + [Draw(reqs[it])];
    }
  }
}

=== FILE: hashmap.dfy ===
/**
 * The generic hash map of cpp_ex3: an array of collision lists ("buckets"),
 * a key goes to bucket `hash(key) & (capacity - 1)`, the table doubles when
 * the load factor rises above 3/4 after an insert and halves when it falls
 * below 1/4 after an erase. Storage is modelled by value: a table is a
 * sequence of buckets plus the element counter the C++ class keeps.
 *
 * The key hash (`std::hash<KeyT>`) is a parameter `hash` of every operation.
 * Exceptions become `Result` values.
 */
module HashMap {
  import opened Wrappers
  import opened Bits
  import opened Chains

  /** Capacity of a default-constructed table. */
  const InitCapacity: nat := 16
  /** A shrink never goes below this many buckets. */
  const MinCapacity: nat := 1
  /** Growth and shrink factor. */
  const TableSizeFactor: nat := 2

  /** The two exceptions the table can throw. */
  datatype Error = KeyNotFound | LengthMismatch

  type Bucket<K, V> = seq<(K, V)>

  /** The table: its buckets (capacity is their number) and the element counter. */
  datatype Table<K, V> = Table(buckets: seq<Bucket<K, V>>, size: nat)

  /** An entry together with its position inside its bucket. */
  datatype ElemMeta<K, V> = ElemMeta(elem: (K, V), idxInBucket: nat)

  // ------------------------------------------------------------------
  // Invariants and abstraction
  // ------------------------------------------------------------------

  /** The bucket index of `key`: the hash masked with `capacity - 1`. */
  function Slot<K>(hash: K -> nat, key: K, capacity: nat): (s: nat)
    ensures capacity >= 1 ==> s < capacity
  {
    if capacity == 0 then 0
    else
      BitAndAtMostMask(hash(key), capacity - 1);
      BitAnd(hash(key), capacity - 1)
  }

  /** Every entry sits in the bucket its key's hash selects. */
  ghost predicate Routed<K, V>(hash: K -> nat, bs: seq<Bucket<K, V>>)
  {
    forall i, j :: 0 <= i < |bs| && 0 <= j < |bs[i]| ==> Slot(hash, bs[i][j].0, |bs|) == i
  }

  /** No bucket holds a key twice. */
  ghost predicate BucketsDistinct<K, V>(bs: seq<Bucket<K, V>>)
  {
    forall i :: 0 <= i < |bs| ==> DistinctKeys(bs[i])
  }

  /** Storage invariant: power-of-two capacity, routing, unique keys, exact counter. */
  ghost predicate Layout<K, V>(hash: K -> nat, m: Table<K, V>)
  {
    && IsPowerOfTwo(|m.buckets|)
    && Routed(hash, m.buckets)
    && BucketsDistinct(m.buckets)
    && m.size == |Flatten(m.buckets)|
  }

  /** The class invariant: the storage invariant and a load factor of at most 3/4. */
  ghost predicate Valid<K, V>(hash: K -> nat, m: Table<K, V>)
  {
    Layout(hash, m) && 4 * m.size <= 3 * |m.buckets|
  }

  /** The key/value map the table represents. */
  ghost function Contents<K, V>(m: Table<K, V>): map<K, V>
  {
    ToMap(Flatten(m.buckets))
  }

  /** First-match lookup in the bucket `key` routes to. */
  function BucketLookup<K(==), V>(hash: K -> nat, m: Table<K, V>, key: K): Option<V>
    requires |m.buckets| >= 1
  {
    LookupList(m.buckets[Slot(hash, key, |m.buckets|)], key)
  }

  /** Empty buckets, no elements: the private capacity constructor. */
  function EmptyTable<K, V>(capacity: nat): (m: Table<K, V>)
    ensures |m.buckets| == capacity && m.size == 0
    ensures forall i :: 0 <= i < capacity ==> m.buckets[i] == []
    ensures Flatten(m.buckets) == []
  {
    var m := Table(seq(capacity, _ => []), 0);
    FlattenAllEmpty(m.buckets);
    m
  }

  // ------------------------------------------------------------------
  // Lemmas about the abstraction
  // ------------------------------------------------------------------

  /** For a power-of-two capacity the mask is the remainder: the slot is `hash(key) mod capacity`. */
  lemma SlotIsHashModCapacity<K>(hash: K -> nat, key: K, capacity: nat)
    requires IsPowerOfTwo(capacity)
    ensures Slot(hash, key, capacity) == hash(key) % capacity
    ensures Slot(hash, key, capacity) < capacity
  {
    LowMaskIsMod(hash(key), capacity);
  }

  /** A key can be in no bucket other than its own. */
  lemma KeyOnlyInItsBucket<K, V>(hash: K -> nat, m: Table<K, V>, key: K)
    requires Layout(hash, m)
    ensures forall i :: 0 <= i < |m.buckets| && i != Slot(hash, key, |m.buckets|)
              ==> LookupList(m.buckets[i], key).None?
  {
    var bs: seq<Bucket<K, V>> := m.buckets;
    forall i | 0 <= i < |bs| && i != Slot(hash, key, |bs|)
      ensures LookupList(bs[i], key).None?
    {
      assert forall j :: 0 <= j < |bs[i]| ==> bs[i][j].0 != key;
    }
  }

  /** The represented map answers exactly what scanning the key's own bucket answers. */
  lemma ContentsIsBucketLookup<K, V>(hash: K -> nat, m: Table<K, V>, key: K)
    requires Layout(hash, m)
    ensures Get(Contents(m), key) == BucketLookup(hash, m, key)
  {
    KeyOnlyInItsBucket(hash, m, key);
    LookupFlattenOnlyIn(m.buckets, key, Slot(hash, key, |m.buckets|));
    ToMapIsLookup(Flatten(m.buckets), key);
  }

  /** Buckets routed to consecutive slots from `lo` concatenate to a list of distinct keys. */
  lemma {:induction false} RoutedFlattenDistinct<K, V>(hash: K -> nat, capacity: nat,
                                                       bs: seq<Bucket<K, V>>, lo: nat)
    requires forall i, j :: 0 <= i < |bs| && 0 <= j < |bs[i]| ==> Slot(hash, bs[i][j].0, capacity) == lo + i
    requires forall i :: 0 <= i < |bs| ==> DistinctKeys(bs[i])
    ensures DistinctKeys(Flatten(bs))
    ensures forall e :: e in Flatten(bs) ==> Slot(hash, e.0, capacity) >= lo
    decreases |bs|
  {
    if bs != [] {
      var rest: seq<Bucket<K, V>> := bs[1..];
      assert forall i, j :: 0 <= i < |rest| && 0 <= j < |rest[i]| ==>
               Slot(hash, rest[i][j].0, capacity) == lo + 1 + i by {
        forall i, j | 0 <= i < |rest| && 0 <= j < |rest[i]|
          ensures Slot(hash, rest[i][j].0, capacity) == lo + 1 + i
        {
          assert rest[i] == bs[i + 1];
        }
      }
      assert forall i :: 0 <= i < |rest| ==> DistinctKeys(rest[i]) by {
        forall i | 0 <= i < |rest| ensures DistinctKeys(rest[i]) {
          assert rest[i] == bs[i + 1];
        }
      }
      RoutedFlattenDistinct(hash, capacity, rest, lo + 1);
      var f := Flatten(bs);
      var n := |bs[0]|;
      assert f == bs[0] + Flatten(rest);
      forall i, j | 0 <= i < j < |f| ensures f[i].0 != f[j].0 {
        if j < n {
          assert f[i] == bs[0][i] && f[j] == bs[0][j];
        } else if i >= n {
          assert f[i] == Flatten(rest)[i - n] && f[j] == Flatten(rest)[j - n];
        } else {
          assert f[i] == bs[0][i];
          assert f[j] in Flatten(rest) by {
            assert f[j] == Flatten(rest)[j - n];
          }
        }
      }
      forall e | e in f ensures Slot(hash, e.0, capacity) >= lo {
        if e in bs[0] {
          var j :| 0 <= j < n && bs[0][j] == e;
        } else {
          assert e in Flatten(rest);
        }
      }
    }
  }

  /** All entries of a well-formed table have distinct keys. */
  lemma EntriesDistinct<K, V>(hash: K -> nat, m: Table<K, V>)
    requires Layout(hash, m)
    ensures DistinctKeys(Flatten(m.buckets))
  {
    RoutedFlattenDistinct(hash, |m.buckets|, m.buckets, 0);
  }

  /** The element counter equals the number of keys in the represented map. */
  lemma SizeIsContentsSize<K, V>(hash: K -> nat, m: Table<K, V>)
    requires Layout(hash, m)
    ensures m.size == |Contents(m)|
  {
    EntriesDistinct(hash, m);
    ToMapSize(Flatten(m.buckets));
  }

  // ------------------------------------------------------------------
  // Lookup
  // ------------------------------------------------------------------

  /** Linear scan of one bucket from position `i`: the loop of `_getPairByKey`. */
  function FindFrom<K(==), V>(bucket: Bucket<K, V>, key: K, i: nat): (r: Option<nat>)
    requires i <= |bucket|
    ensures r.Some? ==> i <= r.value < |bucket| && bucket[r.value].0 == key
    ensures r.Some? ==> forall j :: i <= j < r.value ==> bucket[j].0 != key
    ensures r.Some? ==> LookupList(bucket[i..], key) == Some(bucket[r.value].1)
    ensures r.None? <==> LookupList(bucket[i..], key).None?
    decreases |bucket| - i
  {
    if i == |bucket| then None
    else
      assert bucket[i..][0] == bucket[i] && bucket[i..][1..] == bucket[i + 1..];
      if bucket[i].0 == key then Some(i) else FindFrom(bucket, key, i + 1)
  }

  /** `_getPairByKey`: the entry of `key` and its index in the bucket, or not-found. */
  function GetPairByKey<K(==), V>(hash: K -> nat, m: Table<K, V>, key: K): (r: Result<ElemMeta<K, V>, Error>)
    requires |m.buckets| >= 1
    ensures var b := m.buckets[Slot(hash, key, |m.buckets|)];
            && (r.Err? <==> LookupList(b, key).None?)
            && (r.Err? ==> r.error == KeyNotFound)
            && (r.Ok? ==> && r.value.idxInBucket < |b|
                          && b[r.value.idxInBucket] == r.value.elem
                          && r.value.elem.0 == key
                          && LookupList(b, key) == Some(r.value.elem.1))
  {
    var b := m.buckets[Slot(hash, key, |m.buckets|)];
    assert b[0..] == b;
    match FindFrom(b, key, 0)
    case None => Err(KeyNotFound)
    case Some(i) => Ok(ElemMeta(b[i], i))
  }

  /** `containsKey`: whether the represented map has `key`. */
  function ContainsKey<K(==), V>(hash: K -> nat, m: Table<K, V>, key: K): (r: bool)
    requires Valid(hash, m)
    ensures r <==> key in Contents(m)
  {
    ContentsIsBucketLookup(hash, m, key);
    GetPairByKey(hash, m, key).Ok?
  }

  /** `at`: the value stored for `key`, or `KeyNotFound`. */
  function At<K(==), V>(hash: K -> nat, m: Table<K, V>, key: K): (r: Result<V, Error>)
    requires Valid(hash, m)
    ensures r.Ok? <==> key in Contents(m)
    ensures r.Ok? ==> r.value == Contents(m)[key]
    ensures r.Err? ==> r.error == KeyNotFound
  {
    ContentsIsBucketLookup(hash, m, key);
    match GetPairByKey(hash, m, key)
    case Err(e) => Err(e)
    case Ok(meta) => Ok(meta.elem.1)
  }

  /** `size`: the number of keys the table maps. */
  function Size<K, V>(hash: K -> nat, m: Table<K, V>): (r: nat)
    requires Layout(hash, m)
    ensures r == |Contents(m)|
  {
    SizeIsContentsSize(hash, m);
    m.size
  }

  /** `capacity`: the number of buckets, always a power of two. */
  function Capacity<K, V>(hash: K -> nat, m: Table<K, V>): (r: nat)
    requires Layout(hash, m)
    ensures IsPowerOfTwo(r) && r >= 1
  {
    |m.buckets|
  }

  /** `empty`: whether the table maps no key. */
  function IsEmpty<K, V>(hash: K -> nat, m: Table<K, V>): (r: bool)
    requires Valid(hash, m)
    ensures r <==> Contents(m) == map[]
  {
    SizeIsContentsSize(hash, m);
    m.size == 0
  }

  /** Comparing `size / capacity` with 3/4 or 1/4 is comparing `4 * size` with a multiple of the capacity. */
  lemma LoadFactorCompare(size: nat, capacity: nat)
    ensures capacity >= 1 ==> ((size as real) / (capacity as real) > 3.0 / 4.0 <==> 4 * size > 3 * capacity)
    ensures capacity >= 1 ==> ((size as real) / (capacity as real) < 1.0 / 4.0 <==> 4 * size < capacity)
  {
    if capacity >= 1 {
      RatioCompare(size as real, capacity as real, 3.0 / 4.0);
      RatioCompare(size as real, capacity as real, 1.0 / 4.0);
    }
  }

  /** Dividing by a positive number and comparing is comparing with the multiple. */
  lemma RatioCompare(x: real, c: real, a: real)
    requires c > 0.0
    ensures x / c > a <==> x > a * c
    ensures x / c < a <==> x < a * c
  {
    var q := x / c;
    assert q * c == x;
    assert (q - a) * c == x - a * c;
    SignTimesPositive(q - a, c);
  }

  /** A positive factor keeps the sign. */
  lemma SignTimesPositive(a: real, c: real)
    requires c > 0.0
    ensures a > 0.0 <==> a * c > 0.0
    ensures a < 0.0 <==> a * c < 0.0
  {
  }

  /** `getLoadFactor() > UPPER_LOAD_FACTOR`, i.e. size/capacity > 3/4, in integers. */
  function AboveUpperLoad<K, V>(m: Table<K, V>): (above: bool)
    ensures |m.buckets| >= 1 ==> (above <==> (m.size as real) / (|m.buckets| as real) > 3.0 / 4.0)
  {
    LoadFactorCompare(m.size, |m.buckets|);
    4 * m.size > 3 * |m.buckets|
  }

  /** `getLoadFactor() < LOWER_LOAD_FACTOR`, i.e. size/capacity < 1/4, in integers. */
  function BelowLowerLoad<K, V>(m: Table<K, V>): (below: bool)
    ensures |m.buckets| >= 1 ==> (below <==> (m.size as real) / (|m.buckets| as real) < 1.0 / 4.0)
  {
    LoadFactorCompare(m.size, |m.buckets|);
    4 * m.size < |m.buckets|
  }

  /** `bucketIndex`: the slot of a present key, or `KeyNotFound`. */
  function BucketIndex<K(==), V>(hash: K -> nat, m: Table<K, V>, key: K): (r: Result<nat, Error>)
    requires Valid(hash, m)
    ensures r.Ok? <==> key in Contents(m)
    ensures r.Err? ==> r.error == KeyNotFound
    ensures r.Ok? ==> r.value < |m.buckets| && r.value == hash(key) % |m.buckets|
    ensures r.Ok? ==> LookupList(m.buckets[r.value], key).Some?
  {
    ContentsIsBucketLookup(hash, m, key);
    SlotIsHashModCapacity(hash, key, |m.buckets|);
    if !ContainsKey(hash, m, key) then Err(KeyNotFound)
    else Ok(Slot(hash, key, |m.buckets|))
  }

  /** `bucketSize`: how many entries share the bucket of a present key, or `KeyNotFound`. */
  function BucketSize<K(==), V>(hash: K -> nat, m: Table<K, V>, key: K): (r: Result<nat, Error>)
    requires Valid(hash, m)
    ensures r.Ok? <==> key in Contents(m)
    ensures r.Err? ==> r.error == KeyNotFound
    ensures r.Ok? ==> r.value >= 1 && r.value == |m.buckets[hash(key) % |m.buckets|]|
  {
    match BucketIndex(hash, m, key)
    case Err(e) => Err(e)
    case Ok(i) => Ok(|m.buckets[i]|)
  }

  // ------------------------------------------------------------------
  // Insertion and resizing
  // ------------------------------------------------------------------

  /** Append an entry to the bucket its key routes to and count it. */
  function Place<K, V>(hash: K -> nat, m: Table<K, V>, key: K, value: V): Table<K, V>
    requires |m.buckets| >= 1
  {
    var s := Slot(hash, key, |m.buckets|);
    Table(m.buckets[s := m.buckets[s] + [(key, value)]], m.size + 1)
  }

  /** Placing an absent key keeps the storage invariant and maps exactly that key anew. */
  lemma PlacePreservesLayout<K, V>(hash: K -> nat, m: Table<K, V>, key: K, value: V)
    requires Layout(hash, m)
    requires key !in Contents(m)
    ensures Layout(hash, Place(hash, m, key, value))
    ensures Contents(Place(hash, m, key, value)) == Contents(m)[key := value]
    ensures |Place(hash, m, key, value).buckets| == |m.buckets|
  {
    var bs: seq<Bucket<K, V>> := m.buckets;
    var s := Slot(hash, key, |bs|);
    var p := Place(hash, m, key, value);
    var bs': seq<Bucket<K, V>> := p.buckets;
    ContentsIsBucketLookup(hash, m, key);
    assert forall j :: 0 <= j < |bs[s]| ==> bs[s][j].0 != key;
    assert Routed(hash, bs') by {
      forall i, j | 0 <= i < |bs'| && 0 <= j < |bs'[i]|
        ensures Slot(hash, bs'[i][j].0, |bs'|) == i
      {
        if i == s && j == |bs[s]| {
          assert bs'[i][j] == (key, value);
        } else {
          assert bs'[i][j] == bs[i][j];
        }
      }
    }
    assert BucketsDistinct(bs') by {
      forall i | 0 <= i < |bs'| ensures DistinctKeys(bs'[i]) {
        if i == s {
          forall a, b | 0 <= a < b < |bs'[s]| ensures bs'[s][a].0 != bs'[s][b].0 {
            if b == |bs[s]| {
              assert bs'[s][a] == bs[s][a];
            } else {
              assert bs'[s][a] == bs[s][a] && bs'[s][b] == bs[s][b];
            }
          }
        }
      }
    }
    FlattenUpdateLength(bs, s, bs[s] + [(key, value)]);
    forall k ensures Get(Contents(p), k) == Get(Contents(m)[key := value], k) {
      ContentsIsBucketLookup(hash, m, k);
      ContentsIsBucketLookup(hash, p, k);
      var sk := Slot(hash, k, |bs|);
      if sk == s {
        LookupAppend(bs[s], [(key, value)], k);
        if k != key {
          assert LookupList([(key, value)], k) == None;
        }
      }
    }
    MapsAgreeEverywhere(Contents(p), Contents(m)[key := value]);
  }

  /** The body of `insert` up to the load check: add the entry unless the key is present. */
  function Add<K(==), V>(hash: K -> nat, m: Table<K, V>, key: K, value: V): (r: Table<K, V>)
    requires Layout(hash, m)
    ensures Layout(hash, r)
    ensures |r.buckets| == |m.buckets|
    ensures Contents(r) == if key in Contents(m) then Contents(m) else Contents(m)[key := value]
  {
    ContentsIsBucketLookup(hash, m, key);
    if GetPairByKey(hash, m, key).Ok? then m
    else
      PlacePreservesLayout(hash, m, key, value);
      Place(hash, m, key, value)
  }

  /**
   * The loop of `_resizeTable`: insert every entry, in iteration order, into the
   * fresh table. Entries already present in the target keep their value, and of
   * two entries with one key the first wins.
   */
  function Rehash<K(==), V>(hash: K -> nat, es: seq<(K, V)>, acc: Table<K, V>): (r: Table<K, V>)
    requires Layout(hash, acc)
    ensures Layout(hash, r)
    ensures |r.buckets| == |acc.buckets|
    ensures Contents(r) == ToMap(es) + Contents(acc)
    decreases |es|
  {
    if es == [] then acc
    else
      var next := Add(hash, acc, es[0].0, es[0].1);
      var r := Rehash(hash, es[1..], next);
      ToMapFoldStep(es, Contents(acc), Contents(next), Contents(r));
      r
  }

  /** The table never exceeds 3/4 load while `_resizeTable` fills it, so those inserts never resize. */
  lemma RehashStaysUnderUpperLoad<K, V>(hash: K -> nat, es: seq<(K, V)>, capacity: nat, n: nat)
    requires IsPowerOfTwo(capacity)
    requires 4 * |es| <= 3 * capacity
    requires n <= |es|
    ensures !AboveUpperLoad(Rehash(hash, es[..n], EmptyTable(capacity)))
  {
    var e: Table<K, V> := EmptyTable(capacity);
    FlattenAllEmpty(e.buckets);
    var r := Rehash(hash, es[..n], e);
    SizeIsContentsSize(hash, r);
    assert Contents(e) == map[];
    assert Contents(r) == ToMap(es[..n]);
    ToMapAtMostLength(es[..n]);
  }

  /** A list denotes a map with no more keys than it has entries. */
  lemma {:induction false} ToMapAtMostLength<K, V>(es: seq<(K, V)>)
    ensures |ToMap(es)| <= |es|
    decreases |es|
  {
    if es != [] {
      ToMapAtMostLength(es[1..]);
    }
  }

  /**
   * `_resizeTable(newSize)`: when the counter fits and `newSize >= MIN_CAPACITY`,
   * rebuild the table with `newSize` buckets; otherwise leave it alone.
   *
   * The refill goes through `insert`, whose own load check could grow the
   * fresh table again. Both callers (`insert` and `erase`) pass a `newSize`
   * that holds the elements at a load of at most 3/4, and under that bound
   * the nested check never fires (`RehashStaysUnderUpperLoad`), so the refill
   * is `Rehash` without a load check.
   */
  function ResizeTable<K(==), V>(hash: K -> nat, m: Table<K, V>, newSize: nat): (r: Table<K, V>)
    requires Layout(hash, m)
    requires newSize == 0 || IsPowerOfTwo(newSize)
    requires 4 * m.size <= 3 * newSize
    ensures Layout(hash, r)
    ensures Contents(r) == Contents(m) && r.size == m.size
    ensures |r.buckets| == if m.size <= newSize && newSize >= MinCapacity then newSize else |m.buckets|
    ensures !(m.size <= newSize && newSize >= MinCapacity) ==> r == m
    ensures newSize >= MinCapacity ==> !AboveUpperLoad(r)
  {
    if m.size <= newSize && newSize >= MinCapacity then
      RehashIntoEmpty(hash, m, newSize);
      var es := Flatten(m.buckets);
      RehashStaysUnderUpperLoad(hash, es, newSize, |es|);
      assert es[..|es|] == es;
      Rehash(hash, es, EmptyTable(newSize))
    else m
  }

  /** Re-inserting every entry into an empty table keeps the map and the count. */
  lemma RehashIntoEmpty<K, V>(hash: K -> nat, m: Table<K, V>, newSize: nat)
    requires Layout(hash, m) && IsPowerOfTwo(newSize)
    ensures var r := Rehash(hash, Flatten(m.buckets), EmptyTable(newSize));
            Layout(hash, r) && Contents(r) == Contents(m) && r.size == m.size && |r.buckets| == newSize
  {
    var e: Table<K, V> := EmptyTable(newSize);
    FlattenAllEmpty(e.buckets);
    assert Contents(e) == map[];
    var r := Rehash(hash, Flatten(m.buckets), e);
    assert Contents(r) == Contents(m);
    SizeIsContentsSize(hash, m);
    SizeIsContentsSize(hash, r);
  }

  /**
   * `insert`: false and no change when the key is present (an insert never
   * overwrites); otherwise add it, and double the capacity when the load
   * factor has gone above 3/4.
   */
  function Insert<K(==), V>(hash: K -> nat, m: Table<K, V>, key: K, value: V): (r: (Table<K, V>, bool))
    requires Valid(hash, m)
    ensures Valid(hash, r.0)
    ensures r.1 <==> key !in Contents(m)
    ensures !r.1 ==> r.0 == m
    ensures r.1 ==> Contents(r.0) == Contents(m)[key := value] && r.0.size == m.size + 1
    ensures r.1 ==> |r.0.buckets| == if 4 * (m.size + 1) > 3 * |m.buckets|
                                     then TableSizeFactor * |m.buckets| else |m.buckets|
    ensures r.1 && 4 * (m.size + 1) <= 3 * |m.buckets| ==>
              var s := Slot(hash, key, |m.buckets|);
              r.0.buckets == m.buckets[s := m.buckets[s] + [(key, value)]]
  {
    if ContainsKey(hash, m, key) then (m, false)
    else
      PlacePreservesLayout(hash, m, key, value);
      (GrowIfAboveUpperLoad(hash, Place(hash, m, key, value)), true)
  }

  /** The load check that ends `insert`: above 3/4, double the capacity. */
  function GrowIfAboveUpperLoad<K(==), V>(hash: K -> nat, m: Table<K, V>): (r: Table<K, V>)
    requires Layout(hash, m) && m.size >= 1 && 4 * (m.size - 1) <= 3 * |m.buckets|
    ensures Valid(hash, r)
    ensures Contents(r) == Contents(m) && r.size == m.size
    ensures |r.buckets| == if AboveUpperLoad(m) then TableSizeFactor * |m.buckets| else |m.buckets|
  {
    if AboveUpperLoad(m) then
      var grown := |m.buckets| * TableSizeFactor;
      PowerOfTwoScaling(|m.buckets|);
      GrowthRestoresLoad(m.size - 1, |m.buckets|);
      ResizeTable(hash, m, grown)
    else m
  }

  /** One more element on a table loaded at most 3/4 fits under 3/4 of twice the capacity. */
  lemma GrowthRestoresLoad(size: nat, capacity: nat)
    requires capacity >= 1 && 4 * size <= 3 * capacity
    ensures size + 1 <= 2 * capacity && 4 * (size + 1) <= 3 * (2 * capacity)
  {
  }

  // ------------------------------------------------------------------
  // Erasure
  // ------------------------------------------------------------------

  /** A bucket without its entry at `idx`, the others kept in order (`vector::erase`). */
  function RemoveAt<T>(bucket: seq<T>, idx: nat): (r: seq<T>)
    requires idx < |bucket|
    ensures |r| == |bucket| - 1
    ensures forall i :: 0 <= i < idx ==> r[i] == bucket[i]
    ensures forall i :: idx <= i < |r| ==> r[i] == bucket[i + 1]
  {
    bucket[..idx] + bucket[idx + 1..]
  }

  /** Removing a present key's entry keeps the storage invariant and forgets exactly that key. */
  lemma RemovePreservesLayout<K, V>(hash: K -> nat, m: Table<K, V>, key: K, idx: nat)
    requires Layout(hash, m)
    requires var s := Slot(hash, key, |m.buckets|);
             idx < |m.buckets[s]| && m.buckets[s][idx].0 == key
    ensures m.size >= 1
    ensures var s := Slot(hash, key, |m.buckets|);
            var r := Table(m.buckets[s := RemoveAt(m.buckets[s], idx)], m.size - 1);
            Layout(hash, r) && Contents(r) == Contents(m) - {key}
  {
    var bs: seq<Bucket<K, V>> := m.buckets;
    var s := Slot(hash, key, |bs|);
    var bucket': Bucket<K, V> := RemoveAt(bs[s], idx);
    var bs': seq<Bucket<K, V>> := bs[s := bucket'];
    FlattenUpdateLength(bs, s, bucket');
    var r := Table(bs', m.size - 1);
    assert Routed(hash, bs') by {
      forall i, j | 0 <= i < |bs'| && 0 <= j < |bs'[i]|
        ensures Slot(hash, bs'[i][j].0, |bs'|) == i
      {
        if i == s {
          if j < idx {
            assert bs'[i][j] == bs[s][j];
          } else {
            assert bs'[i][j] == bs[s][j + 1];
          }
        } else {
          assert bs'[i][j] == bs[i][j];
        }
      }
    }
    RemoveAtKeepsDistinct(bs[s], idx);
    assert BucketsDistinct(bs');
    forall k ensures Get(Contents(r), k) == Get(Contents(m) - {key}, k) {
      ContentsIsBucketLookup(hash, m, k);
      ContentsIsBucketLookup(hash, r, k);
      if Slot(hash, k, |bs|) == s {
        LookupRemoveAt(bs[s], idx, k);
      }
    }
    MapsAgreeEverywhere(Contents(r), Contents(m) - {key});
  }

  /**
   * `erase`: false and no change for an absent key; otherwise remove its entry
   * (the bucket keeps the others in order) and halve the capacity when the load
   * factor has fallen below 1/4 and the halved capacity is at least 1.
   */
  function Erase<K(==), V>(hash: K -> nat, m: Table<K, V>, key: K): (r: (Table<K, V>, bool))
    requires Valid(hash, m)
    ensures Valid(hash, r.0)
    ensures r.1 <==> key in Contents(m)
    ensures Contents(r.0) == Contents(m) - {key}
    ensures !r.1 ==> r.0 == m
    ensures r.1 ==> r.0.size == m.size - 1
    ensures r.1 ==> |r.0.buckets| == if 4 * (m.size - 1) < |m.buckets| && |m.buckets| >= 2
                                     then |m.buckets| / TableSizeFactor else |m.buckets|
    ensures r.1 && !(4 * (m.size - 1) < |m.buckets| && |m.buckets| >= 2) ==>
              var s := Slot(hash, key, |m.buckets|);
              exists idx :: 0 <= idx < |m.buckets[s]| && m.buckets[s][idx].0 == key
                            && r.0.buckets == m.buckets[s := RemoveAt(m.buckets[s], idx)]
  {
    ContentsIsBucketLookup(hash, m, key);
    var bucketIdx := Slot(hash, key, |m.buckets|);
    match GetPairByKey(hash, m, key)
    case Err(_) =>
      assert key !in Contents(m);
      (m, false)
    case Ok(meta) =>
      var idx := meta.idxInBucket;
      RemovePreservesLayout(hash, m, key, idx);
      var removed := Table(m.buckets[bucketIdx := RemoveAt(m.buckets[bucketIdx], idx)], m.size - 1);
      if BelowLowerLoad(removed) then
        PowerOfTwoScaling(|m.buckets|);
        (ResizeTable(hash, removed, |m.buckets| / TableSizeFactor), true)
      else (removed, true)
  }

  /** `clear`: no entries, capacity unchanged. */
  function Clear<K, V>(hash: K -> nat, m: Table<K, V>): (r: Table<K, V>)
    requires Valid(hash, m)
    ensures Valid(hash, r)
    ensures Contents(r) == map[] && r.size == 0
    ensures |r.buckets| == |m.buckets|
  {
    var r: Table<K, V> := EmptyTable(|m.buckets|);
    FlattenAllEmpty(r.buckets);
    r
  }

  /** The default constructor: an empty table with 16 buckets. */
  function New<K, V>(hash: K -> nat): (r: Table<K, V>)
    ensures Valid(hash, r)
    ensures Contents(r) == map[] && r.size == 0
    ensures |r.buckets| == InitCapacity
  {
    var r: Table<K, V> := EmptyTable(InitCapacity);
    FlattenAllEmpty(r.buckets);
    assert IsPowerOfTwo(16) by {
      assert IsPowerOfTwo(1) && IsPowerOfTwo(2) && IsPowerOfTwo(4) && IsPowerOfTwo(8);
    }
    r
  }

  // ------------------------------------------------------------------
  // Mutable indexed access and the two-vector constructor
  // ------------------------------------------------------------------

  /**
   * Mutable `operator[]`: the stored value of a present key; for an absent key,
   * first insert `ValueT()` (here `defaultValue`), which may grow the table.
   */
  function Index<K(==), V>(hash: K -> nat, m: Table<K, V>, key: K, defaultValue: V): (r: (Table<K, V>, V))
    requires Valid(hash, m)
    ensures Valid(hash, r.0)
    ensures key in Contents(r.0) && r.1 == Contents(r.0)[key]
    ensures key in Contents(m) ==> r.0 == m
    ensures key !in Contents(m) ==> Contents(r.0) == Contents(m)[key := defaultValue]
  {
    match At(hash, m, key)
    case Ok(v) => (m, v)
    case Err(_) =>
      var m' := Insert(hash, m, key, defaultValue).0;
      (m', At(hash, m', key).value)
  }

  /** Writing through the reference of a present key: its value becomes `value`, nothing else changes. */
  function SetValue<K(==), V>(hash: K -> nat, m: Table<K, V>, key: K, value: V): (r: Table<K, V>)
    requires Valid(hash, m)
    requires key in Contents(m)
    ensures Valid(hash, r)
    ensures |r.buckets| == |m.buckets|
    ensures Contents(r) == Contents(m)[key := value]
  {
    ContentsIsBucketLookup(hash, m, key);
    var s := Slot(hash, key, |m.buckets|);
    var idx := GetPairByKey(hash, m, key).value.idxInBucket;
    var r := Table(m.buckets[s := m.buckets[s][idx := (key, value)]], m.size);
    SetValueKeepsLayout(hash, m, key, value, idx);
    r
  }

  /** Overwriting the value of an entry in place keeps the layout and updates one key. */
  lemma SetValueKeepsLayout<K, V>(hash: K -> nat, m: Table<K, V>, key: K, value: V, idx: nat)
    requires Valid(hash, m)
    requires var s := Slot(hash, key, |m.buckets|);
             idx < |m.buckets[s]| && m.buckets[s][idx].0 == key
    ensures var s := Slot(hash, key, |m.buckets|);
            var r := Table(m.buckets[s := m.buckets[s][idx := (key, value)]], m.size);
            Valid(hash, r) && Contents(r) == Contents(m)[key := value]
  {
    var bs: seq<Bucket<K, V>> := m.buckets;
    var s := Slot(hash, key, |bs|);
    var bucket': Bucket<K, V> := bs[s][idx := (key, value)];
    var bs': seq<Bucket<K, V>> := bs[s := bucket'];
    var r := Table(bs', m.size);
    FlattenUpdateLength(bs, s, bucket');
    assert Routed(hash, bs') by {
      forall i, j | 0 <= i < |bs'| && 0 <= j < |bs'[i]|
        ensures Slot(hash, bs'[i][j].0, |bs'|) == i
      {
        if i == s && j == idx {
          assert bs'[i][j].0 == bs[i][j].0;
        } else {
          assert bs'[i][j] == bs[i][j];
        }
      }
    }
    assert BucketsDistinct(bs') by {
      forall i | 0 <= i < |bs'| ensures DistinctKeys(bs'[i]) {
        if i == s {
          forall a, b | 0 <= a < b < |bucket'| ensures bucket'[a].0 != bucket'[b].0 {
            assert bucket'[a].0 == bs[s][a].0 && bucket'[b].0 == bs[s][b].0;
          }
        }
      }
    }
    forall k ensures Get(Contents(r), k) == Get(Contents(m)[key := value], k) {
      ContentsIsBucketLookup(hash, m, k);
      ContentsIsBucketLookup(hash, r, k);
      if Slot(hash, k, |bs|) == s {
        LookupSetAt(bs[s], idx, value, k);
      }
    }
    MapsAgreeEverywhere(Contents(r), Contents(m)[key := value]);
  }

  /** `(*this)[key] = value`: `operator[]` followed by a write through the returned reference. */
  function IndexAssign<K(==), V>(hash: K -> nat, m: Table<K, V>, key: K, value: V, defaultValue: V): (r: Table<K, V>)
    requires Valid(hash, m)
    ensures Valid(hash, r)
    ensures Contents(r) == Contents(m)[key := value]
  {
    var m' := Index(hash, m, key, defaultValue).0;
    SetValue(hash, m', key, value)
  }

  /** The map two parallel vectors describe when a later pair overrides an earlier one. */
  ghost function LastWins<K, V>(keys: seq<K>, values: seq<V>): map<K, V>
    requires |keys| == |values|
    decreases |keys|
  {
    if keys == [] then map[]
    else LastWins(keys[..|keys| - 1], values[..|keys| - 1])[keys[|keys| - 1] := values[|keys| - 1]]
  }

  /** `LastWins` maps exactly the given keys, each to the value paired with its last occurrence. */
  lemma {:induction false} LastWinsPicksLastOccurrence<K, V>(keys: seq<K>, values: seq<V>, i: nat)
    requires |keys| == |values|
    requires i < |keys|
    requires forall j :: i < j < |keys| ==> keys[j] != keys[i]
    ensures keys[i] in LastWins(keys, values)
    ensures LastWins(keys, values)[keys[i]] == values[i]
    decreases |keys|
  {
    var n := |keys| - 1;
    if i < n {
      LastWinsPicksLastOccurrence(keys[..n], values[..n], i);
    }
  }

  /** `LastWins` maps no key outside the key vector. */
  lemma {:induction false} LastWinsKeys<K, V>(keys: seq<K>, values: seq<V>)
    requires |keys| == |values|
    ensures forall k :: k in LastWins(keys, values) ==> k in keys
    decreases |keys|
  {
    if keys != [] {
      var n := |keys| - 1;
      LastWinsKeys(keys[..n], values[..n]);
    }
  }

  /**
   * The two-vector constructor: `LengthMismatch` when the lengths differ;
   * otherwise `(*this)[keys[i]] = values[i]` for every `i` in order, so the last
   * value given for a repeated key wins.
   */
  method FromVectors<K(==), V>(hash: K -> nat, keys: seq<K>, values: seq<V>, defaultValue: V)
    returns (r: Result<Table<K, V>, Error>)
    ensures r.Err? <==> |keys| != |values|
    ensures r.Err? ==> r.error == LengthMismatch
    ensures r.Ok? ==> Valid(hash, r.value) && Contents(r.value) == LastWins(keys, values)
  {
    if |keys| != |values| {
      return Err(LengthMismatch);
    }
    var m: Table<K, V> := New(hash);
    var i := 0;
    while i < |keys|
      invariant 0 <= i <= |keys|
      invariant Valid(hash, m)
      invariant Contents(m) == LastWins(keys[..i], values[..i])
    {
      m := IndexAssign(hash, m, keys[i], values[i], defaultValue);
      assert keys[..i + 1][..i] == keys[..i] && values[..i + 1][..i] == values[..i];
      i := i + 1;
    }
    assert keys[..i] == keys && values[..i] == values;
    return Ok(m);
  }

  // ------------------------------------------------------------------
  // Equality
  // ------------------------------------------------------------------

  /** The loop of `operator==`: every entry of `es` is in `m` with an equal value. */
  function AllFound<K(==), V(==)>(hash: K -> nat, m: Table<K, V>, es: seq<(K, V)>): (r: bool)
    requires Valid(hash, m)
    ensures r <==> forall i :: 0 <= i < |es| ==> Get(Contents(m), es[i].0) == Some(es[i].1)
    decreases |es|
  {
    if es == [] then true
    else
      match At(hash, m, es[0].0)
      case Err(_) => false
      case Ok(v) =>
        if v != es[0].1 then false
        else
          var r := AllFound(hash, m, es[1..]);
          assert r <==> forall i :: 0 <= i < |es| ==> Get(Contents(m), es[i].0) == Some(es[i].1) by {
            if r {
              forall i | 0 <= i < |es| ensures Get(Contents(m), es[i].0) == Some(es[i].1) {
                if i > 0 {
                  assert es[i] == es[1..][i - 1];
                }
              }
            } else {
              var i :| 0 <= i < |es[1..]| && Get(Contents(m), es[1..][i].0) != Some(es[1..][i].1);
              assert es[1..][i] == es[i + 1];
            }
          }
          r
  }

  /**
   * `operator==`: equal counters and every entry of `other` found in `this`
   * with an equal value (walking `other`'s entries in iteration order).
   */
  function Equals<K(==), V(==)>(hash: K -> nat, m: Table<K, V>, other: Table<K, V>): (r: bool)
    requires Valid(hash, m) && Valid(hash, other)
    ensures r <==> Contents(m) == Contents(other)
  {
    EqualsIsSameContents(hash, m, other);
    if m.size == other.size then AllFound(hash, m, Flatten(other.buckets)) else false
  }

  /** `operator!=`: the negation of `operator==`. */
  function NotEquals<K(==), V(==)>(hash: K -> nat, m: Table<K, V>, other: Table<K, V>): (r: bool)
    requires Valid(hash, m) && Valid(hash, other)
    ensures r <==> Contents(m) != Contents(other)
  {
    !Equals(hash, m, other)
  }

  /** The one-directional walk of `operator==` decides equality of the represented maps. */
  lemma EqualsIsSameContents<K, V>(hash: K -> nat, m: Table<K, V>, other: Table<K, V>)
    requires Valid(hash, m) && Valid(hash, other)
    ensures (m.size == other.size &&
             forall i :: 0 <= i < |Flatten(other.buckets)| ==>
               Get(Contents(m), Flatten(other.buckets)[i].0) == Some(Flatten(other.buckets)[i].1))
            <==> Contents(m) == Contents(other)
  {
    if Contents(m) == Contents(other) {
      SameContentsWalkFinds(hash, m, other, Flatten(other.buckets));
    }
    WalkFindsSameContents(hash, m, other, Flatten(other.buckets));
  }

  /** Tables representing the same map have equal sizes and find each other's entries. */
  lemma SameContentsWalkFinds<K, V>(hash: K -> nat, m: Table<K, V>, other: Table<K, V>, es: seq<(K, V)>)
    requires Valid(hash, m) && Valid(hash, other)
    requires es == Flatten(other.buckets)
    requires Contents(m) == Contents(other)
    ensures m.size == other.size
    ensures forall i :: 0 <= i < |es| ==> Get(Contents(m), es[i].0) == Some(es[i].1)
  {
    SizeIsContentsSize(hash, m);
    SizeIsContentsSize(hash, other);
    EntriesDistinct(hash, other);
    forall i | 0 <= i < |es| ensures Get(Contents(m), es[i].0) == Some(es[i].1) {
      LookupFindsMember(es, i);
      ToMapIsLookup(es, es[i].0);
    }
  }

  /** Equal sizes and every entry of `other` found in `m`: the two tables represent the same map. */
  lemma WalkFindsSameContents<K, V>(hash: K -> nat, m: Table<K, V>, other: Table<K, V>, es: seq<(K, V)>)
    requires Valid(hash, m) && Valid(hash, other)
    requires es == Flatten(other.buckets)
    ensures (m.size == other.size && forall i :: 0 <= i < |es| ==> Get(Contents(m), es[i].0) == Some(es[i].1))
            ==> Contents(m) == Contents(other)
  {
    if m.size == other.size && forall i :: 0 <= i < |es| ==> Get(Contents(m), es[i].0) == Some(es[i].1) {
      WalkFindsSameContentsWhen(hash, m, other, es);
    }
  }

  /** The proof of `WalkFindsSameContents` once its premise is given. */
  lemma WalkFindsSameContentsWhen<K, V>(hash: K -> nat, m: Table<K, V>, other: Table<K, V>, es: seq<(K, V)>)
    requires Valid(hash, m) && Valid(hash, other)
    requires es == Flatten(other.buckets)
    requires m.size == other.size
    requires forall i :: 0 <= i < |es| ==> Get(Contents(m), es[i].0) == Some(es[i].1)
    ensures Contents(m) == Contents(other)
  {
    var cm, co := Contents(m), Contents(other);
    forall k | k in co ensures Get(cm, k) == Get(co, k) {
      ToMapIsLookup(es, k);
      var i :| 0 <= i < |es| && es[i] == (k, co[k]);
      assert Get(cm, es[i].0) == Some(es[i].1);
    }
    SizeIsContentsSize(hash, m);
    SizeIsContentsSize(hash, other);
    SubsetSameSizeEqual(co.Keys, cm.Keys);
    forall k ensures Get(cm, k) == Get(co, k) {
      if k !in co {
        assert k !in cm;
      }
    }
    MapsAgreeEverywhere(cm, co);
  }
}

=== FILE: iterator.dfy ===
/**
 * The const forward iterator of the hash map: a cursor (bucket, position)
 * that walks the buckets in index order, skips empty ones, and parks on the
 * end position of the last bucket when it runs out.
 */
module HashMapIterator {
  import opened Chains
  import opened HashMap

  /** `_currBucket` and the offset of `_pairPtr` inside that bucket. */
  datatype ConstIterator = ConstIterator(currBucket: nat, pairIdx: nat)

  /** `_setEnd`: one past the last entry of the last bucket. */
  function SetEnd<K, V>(m: Table<K, V>): (it: ConstIterator)
    requires |m.buckets| >= 1
    ensures it.currBucket == |m.buckets| - 1
    ensures it.pairIdx == |m.buckets[|m.buckets| - 1]|
    ensures !Dereferenceable(m, it) && Remaining(m, it) == []
  {
    assert m.buckets[|m.buckets|..] == [];
    ConstIterator(|m.buckets| - 1, |m.buckets[|m.buckets| - 1]|)
  }

  /** The iterator points at an entry (it is not the end position). */
  predicate Dereferenceable<K, V>(m: Table<K, V>, it: ConstIterator)
  {
    it.currBucket < |m.buckets| && it.pairIdx < |m.buckets[it.currBucket]|
  }

  /**
   * `_nextBucket` with its scan starting at bucket `from`: the first entry of
   * the first non-empty bucket at or after `from`, or the end position.
   */
  function NextBucket<K, V>(m: Table<K, V>, from: nat): (it: ConstIterator)
    requires |m.buckets| >= 1
    ensures it == SetEnd(m) || (Dereferenceable(m, it) && it.pairIdx == 0 && from <= it.currBucket)
    ensures it != SetEnd(m) ==> forall i :: from <= i < it.currBucket ==> m.buckets[i] == []
    ensures it == SetEnd(m) && !Dereferenceable(m, it) ==>
              forall i :: from <= i < |m.buckets| ==> m.buckets[i] == []
    decreases |m.buckets| - from
  {
    if from >= |m.buckets| then SetEnd(m)
    else if m.buckets[from] != [] then ConstIterator(from, 0)
    else NextBucket(m, from + 1)
  }

  /**
   * The constructor `const_iterator(map, startFromBucket)`: the end position for
   * an empty map, otherwise the first entry of the first non-empty bucket at or
   * after `startFromBucket`.
   */
  function MakeIterator<K, V>(m: Table<K, V>, startFromBucket: nat): (it: ConstIterator)
    requires |m.buckets| >= 1
    ensures m.size == 0 ==> it == SetEnd(m)
    ensures it == SetEnd(m) || (Dereferenceable(m, it) && it.pairIdx == 0 && startFromBucket <= it.currBucket)
    ensures it != SetEnd(m) ==> forall i :: startFromBucket <= i < it.currBucket ==> m.buckets[i] == []
  {
    if m.size != 0 then NextBucket(m, startFromBucket) else SetEnd(m)
  }

  /** `begin()` / `cbegin()`. */
  function Begin<K, V>(m: Table<K, V>): (it: ConstIterator)
    requires |m.buckets| >= 1
    ensures m.size == 0 ==> it == SetEnd(m)
    ensures it == SetEnd(m) || (Dereferenceable(m, it) && it.pairIdx == 0)
    ensures it != SetEnd(m) ==> forall i :: 0 <= i < it.currBucket ==> m.buckets[i] == []
  {
    MakeIterator(m, 0)
  }

  /** `end()` / `cend()`. */
  function End<K, V>(m: Table<K, V>): (it: ConstIterator)
    requires |m.buckets| >= 1
    ensures it == SetEnd(m)
    ensures !Dereferenceable(m, it)
  {
    MakeIterator(m, |m.buckets|)
  }

  /** `operator*`: the entry under the cursor. */
  function Deref<K, V>(m: Table<K, V>, it: ConstIterator): (e: (K, V))
    requires Dereferenceable(m, it)
    ensures Remaining(m, it) != [] && e == Remaining(m, it)[0]
  {
    m.buckets[it.currBucket][it.pairIdx]
  }

  /** `operator++` (`_nextPair`): the next entry of this bucket, else the next non-empty bucket. */
  function Advance<K, V>(m: Table<K, V>, it: ConstIterator): (next: ConstIterator)
    requires Dereferenceable(m, it)
    ensures next == End(m) || Dereferenceable(m, next)
  {
    if it.pairIdx + 1 == |m.buckets[it.currBucket]| then NextBucket(m, it.currBucket + 1)
    else ConstIterator(it.currBucket, it.pairIdx + 1)
  }

  /** The entries still to be visited from a cursor position, in visiting order. */
  ghost function Remaining<K, V>(m: Table<K, V>, it: ConstIterator): seq<(K, V)>
    requires it.currBucket < |m.buckets| && it.pairIdx <= |m.buckets[it.currBucket]|
  {
    m.buckets[it.currBucket][it.pairIdx..] + Flatten(m.buckets[it.currBucket + 1..])
  }

  /** Nothing remains at the end position. */
  lemma EndHasNothingLeft<K, V>(m: Table<K, V>)
    requires |m.buckets| >= 1
    ensures Remaining(m, End(m)) == []
  {
    assert m.buckets[|m.buckets|..] == [];
  }

  /** From `_nextBucket(from)` the rest of the walk is every bucket from `from` on. */
  lemma {:induction false} NextBucketRemaining<K, V>(m: Table<K, V>, from: nat)
    requires |m.buckets| >= 1
    requires from <= |m.buckets|
    ensures Remaining(m, NextBucket(m, from)) == Flatten(m.buckets[from..])
    decreases |m.buckets| - from
  {
    if from == |m.buckets| {
      EndHasNothingLeft(m);
      assert m.buckets[from..] == [];
    } else {
      FlattenSuffix(m.buckets, from);
      if m.buckets[from] != [] {
        assert m.buckets[from][0..] == m.buckets[from];
      } else {
        NextBucketRemaining(m, from + 1);
      }
    }
  }

  /** Walking from `begin()` visits every entry of the table in bucket order. */
  lemma BeginRemaining<K, V>(hash: K -> nat, m: Table<K, V>)
    requires Layout(hash, m)
    ensures Remaining(m, Begin(m)) == Flatten(m.buckets)
  {
    assert m.buckets[0..] == m.buckets;
    if m.size != 0 {
      NextBucketRemaining(m, 0);
    } else {
      EndHasNothingLeft(m);
    }
  }

  /** One step of the walk yields the entry under the cursor and moves to the rest. */
  lemma AdvanceRemaining<K, V>(m: Table<K, V>, it: ConstIterator)
    requires Dereferenceable(m, it)
    ensures Remaining(m, it) == [Deref(m, it)] + Remaining(m, Advance(m, it))
  {
    var b := m.buckets[it.currBucket];
    assert b[it.pairIdx..] == [b[it.pairIdx]] + b[it.pairIdx + 1..];
    if it.pairIdx + 1 == |b| {
      NextBucketRemaining(m, it.currBucket + 1);
      assert b[it.pairIdx + 1..] == [];
    }
  }

  /**
   * The range-for over a table: advancing from `begin()` until the cursor equals
   * `end()` visits every entry exactly once, in ascending bucket order and, inside
   * a bucket, in insertion order.
   */
  method Entries<K, V>(hash: K -> nat, m: Table<K, V>) returns (es: seq<(K, V)>)
    requires Layout(hash, m)
    ensures es == Flatten(m.buckets)
    ensures |es| == m.size
    ensures DistinctKeys(es)
    ensures ToMap(es) == Contents(m)
  {
    es := [];
    var it := Begin(m);
    BeginRemaining(hash, m);
    EndHasNothingLeft(m);
    while it != End(m)
      invariant it == End(m) || Dereferenceable(m, it)
      invariant es + Remaining(m, it) == Flatten(m.buckets)
      decreases |Remaining(m, it)|
    {
      AdvanceRemaining(m, it);
      var entry := Deref(m, it);
      var next := Advance(m, it);
      ConcatRegroup(es, entry, Remaining(m, next));
      es := es + [entry];
      it := next;
    }
    EntriesDistinct(hash, m);
  }

  /** Moving one entry from the front of the rest to the back of the visited part keeps the whole. */
  lemma ConcatRegroup<T>(visited: seq<T>, entry: T, rest: seq<T>)
    ensures (visited + [entry]) + rest == visited + ([entry] + rest)
  {
  }
}

=== FILE: spamdetector.dfy ===
/**
 * The spam detector: a filter of bad phrases with scores is read from CSV
 * lines into a `HashMap<string, int>`, and a message is declared spam when the
 * weighted count of phrase occurrences reaches a positive threshold.
 */
module SpamDetector {
  import opened Wrappers
  import opened Text
  import opened Tokenizer
  import opened Chains
  import opened HashMap
  import opened HashMapIterator

  /** A score containing this character is not an integer. */
  const NotIntFlag: char := '.'
  /** The CSV column separator. */
  const CsvSeparator: char := ','
  /** How many columns a database line has. */
  const CsvColumns: nat := 2

  /** The thrown `std::invalid_argument` (printed as "Invalid input"). */
  datatype Failure = InvalidInput

  /** The two printable verdicts. */
  datatype Verdict = Spam | NotSpam

  /** One parsed database line. */
  datatype Record = Record(phrase: string, score: int)

  /** `hasLetters`: `any_of(..., isalpha)`. */
  function HasLetters(s: string): (r: bool)
    ensures r <==> exists i :: 0 <= i < |s| && IsAlphaChar(s[i])
    decreases |s|
  {
    if s == [] then false
    else if IsAlphaChar(s[0]) then true
    else
      var rest := HasLetters(s[1..]);
      assert forall i :: 1 <= i < |s| ==> s[i] == s[1..][i - 1];
      rest
  }

  /**
   * `parsePhrase`: the test is `!input.empty() || hasLetters(input)`, so every
   * non-empty phrase is accepted, letters or not, and the empty one is refused.
   */
  function ParsePhrase(input: string): (r: Option<string>)
    ensures r.Some? <==> input != []
    ensures r.Some? ==> r.value == input
  {
    if input != [] || HasLetters(input) then Some(input) else None
  }

  /** `isInt`: no `'.'` anywhere in the string. */
  function IsInt(s: string): (r: bool)
    ensures r <==> NotIntFlag !in s
  {
    FindChar(s, NotIntFlag, 0).None?
  }

  /**
   * `parseScore`: a non-empty string with neither `'.'` nor a letter whose
   * `stoi` value is not negative.
   */
  function ParseScore(s: string): (r: Option<int>)
    ensures r.Some? ==> r.value >= 0
    ensures s == [] || NotIntFlag in s || HasLetters(s) ==> r.None?
    ensures r.Some? ==> StoI(s) == r
    ensures s != [] && AllDigits(s) ==> r == Some(DecimalValue(s) as int)
  {
    assert s != [] && AllDigits(s) ==> StoI(s) == Some(DecimalValue(s) as int) by {
      if s != [] && AllDigits(s) {
        StoIOfDigits(s);
      }
    }
    assert AllDigits(s) ==> !HasLetters(s) && NotIntFlag !in s;
    if s != [] && IsInt(s) && !HasLetters(s) then
      match StoI(s)
      case None => None
      case Some(v) => if v >= 0 then Some(v) else None
    else None
  }

  /** `parseThreshold`: a score that is strictly positive, else invalid input. */
  function ParseThreshold(t: string): (r: Result<int, Failure>)
    ensures r.Ok? <==> ParseScore(t).Some? && ParseScore(t).value > 0
    ensures r.Ok? ==> r.value > 0 && Some(r.value) == StoI(t)
    ensures t != [] && AllDigits(t) ==> (r.Ok? <==> DecimalValue(t) > 0)
  {
    match ParseScore(t)
    case Some(v) => if v > 0 then Ok(v) else Err(InvalidInput)
    case None => Err(InvalidInput)
  }

  /**
   * `parseCSVLine`: split on `','` keeping empty tokens; exactly two columns,
   * a valid phrase and a valid score, else invalid input.
   */
  function ParseCsvLine(line: string): (r: Result<Record, Failure>)
    ensures r.Ok? ==> r.value.phrase != [] && CsvSeparator !in r.value.phrase && r.value.score >= 0
    ensures r.Ok? ==> exists scoreText :: CsvSeparator !in scoreText &&
                        line == r.value.phrase + [CsvSeparator] + scoreText &&
                        ParseScore(scoreText) == Some(r.value.score)
  {
    var tokens := SplitKeep(line, CsvSeparator);
    if |tokens| != CsvColumns then Err(InvalidInput)
    else
      match (ParsePhrase(tokens[0]), ParseScore(tokens[1]))
      case (Some(p), Some(v)) =>
        JoinSplitKeep(line, CsvSeparator);
        assert tokens[1..] == [tokens[1]];
        assert line == tokens[0] + [CsvSeparator] + tokens[1];
        Ok(Record(p, v))
      case _ => Err(InvalidInput)
  }

  /** Lines without exactly one comma do not parse. */
  lemma CsvLineNeedsOneSeparator(fields: seq<string>)
    requires |fields| != CsvColumns
    requires forall i :: 0 <= i < |fields| ==> CsvSeparator !in fields[i]
    ensures ParseCsvLine(Join(fields, CsvSeparator)).Err?
  {
    if fields != [""] {
      SplitKeepJoin(fields, CsvSeparator);
    }
  }

  /** A phrase and a score text joined by a comma parse back to that phrase and score. */
  lemma CsvLineOfFields(phrase: string, scoreText: string)
    requires phrase != [] && CsvSeparator !in phrase && CsvSeparator !in scoreText
    requires ParseScore(scoreText).Some?
    ensures ParseCsvLine(phrase + [CsvSeparator] + scoreText) == Ok(Record(phrase, ParseScore(scoreText).value))
  {
    var fields := [phrase, scoreText];
    assert fields[1..] == [scoreText];
    assert Join(fields, CsvSeparator) == phrase + [CsvSeparator] + scoreText;
    SplitKeepJoin(fields, CsvSeparator);
  }

  /** `tolower` in the "C" locale: only 'A'..'Z' change. */
  function ToLowerChar(c: char): (r: char)
    ensures IsAlphaChar(c) <==> IsAlphaChar(r)
    ensures 'A' <= r <= 'Z' ==> false
    ensures 'A' <= c <= 'Z' ==> 'a' <= r <= 'z' && r as int - 'a' as int == c as int - 'A' as int
    ensures !('A' <= c <= 'Z') ==> r == c
  {
    if 'A' <= c <= 'Z' then (c as int - 'A' as int + 'a' as int) as char else c
  }

  /** `toLowerCase`: `tolower` applied to every character in place. */
  function ToLowerCase(s: string): (r: string)
    ensures |r| == |s|
    ensures forall i :: 0 <= i < |s| ==> r[i] == ToLowerChar(s[i])
    decreases |s|
  {
    if s == [] then [] else [ToLowerChar(s[0])] + ToLowerCase(s[1..])
  }

  /** Lowering twice is lowering once, and a lowered string has no capital letter. */
  lemma ToLowerCaseIdempotent(s: string)
    ensures ToLowerCase(ToLowerCase(s)) == ToLowerCase(s)
    ensures forall i :: 0 <= i < |s| ==> !('A' <= ToLowerCase(s)[i] <= 'Z')
  {
    var once := ToLowerCase(s);
    var twice := ToLowerCase(once);
    assert forall i :: 0 <= i < |s| ==> twice[i] == once[i];
  }

  /**
   * Reference count of non-overlapping occurrences of `p` in `s`, taking the
   * leftmost match first and resuming right after it.
   */
  ghost function NonOverlapping(s: string, p: string): nat
    requires p != []
    decreases |s|
  {
    if |s| < |p| then 0
    else if s[..|p|] == p then 1 + NonOverlapping(s[|p|..], p)
    else NonOverlapping(s[1..], p)
  }

  /** Matches never overlap, so they take up no more room than the text. */
  lemma {:induction false} NonOverlappingBound(s: string, p: string)
    requires p != []
    ensures NonOverlapping(s, p) * |p| <= |s|
    decreases |s|
  {
    if |s| >= |p| {
      if s[..|p|] == p {
        NonOverlappingBound(s[|p|..], p);
      } else {
        NonOverlappingBound(s[1..], p);
      }
    }
  }

  /** No match from `pos` on: nothing left to count. */
  lemma {:induction false} FindNoneCountsNothing(msg: string, p: string, pos: nat)
    requires p != [] && pos <= |msg|
    requires forall i :: pos <= i ==> !OccursAt(msg, p, i)
    ensures NonOverlapping(msg[pos..], p) == 0
    decreases |msg| - pos
  {
    if |msg[pos..]| >= |p| {
      assert msg[pos..][..|p|] == msg[pos..pos + |p|];
      assert !OccursAt(msg, p, pos);
      assert msg[pos..][1..] == msg[pos + 1..];
      FindNoneCountsNothing(msg, p, pos + 1);
    }
  }

  /** The next match found from `pos` is the leftmost one the reference count takes. */
  lemma {:induction false} FindSomeCountsOne(msg: string, p: string, pos: nat, j: nat)
    requires p != [] && pos <= j
    requires OccursAt(msg, p, j)
    requires forall i :: pos <= i < j ==> !OccursAt(msg, p, i)
    ensures NonOverlapping(msg[pos..], p) == 1 + NonOverlapping(msg[j + |p|..], p)
    decreases j - pos
  {
    assert msg[pos..][..|p|] == msg[pos..pos + |p|];
    if pos == j {
      assert msg[pos..][|p|..] == msg[j + |p|..];
    } else {
      assert !OccursAt(msg, p, pos);
      assert msg[pos..][1..] == msg[pos + 1..];
      FindSomeCountsOne(msg, p, pos + 1, j);
    }
  }

  /** What one `find` from `pos` contributes to the reference count. */
  lemma FindCounts(msg: string, p: string, pos: nat)
    requires p != [] && pos <= |msg|
    ensures Find(msg, p, pos).None? ==> NonOverlapping(msg[pos..], p) == 0
    ensures Find(msg, p, pos).Some? ==>
              var j := Find(msg, p, pos).value;
              pos <= j && j + |p| <= |msg| &&
              NonOverlapping(msg[pos..], p) == 1 + NonOverlapping(msg[j + |p|..], p)
  {
    match Find(msg, p, pos)
    case None => FindNoneCountsNothing(msg, p, pos);
    case Some(j) => FindSomeCountsOne(msg, p, pos, j);
  }

  /**
   * The inner loop of `rankMsg`: search from `pos`, count a hit and resume at
   * the hit plus the phrase length, until `find` returns `npos`.
   */
  method Occurrences(msg: string, phrase: string) returns (occurrences: nat)
    requires phrase != []
    ensures occurrences == NonOverlapping(msg, phrase)
    ensures occurrences * |phrase| <= |msg|
  {
    occurrences := 0;
    var pos: nat := 0;
    assert msg[0..] == msg;
    while true
      invariant pos <= |msg|
      invariant occurrences + NonOverlapping(msg[pos..], phrase) == NonOverlapping(msg, phrase)
      decreases |msg| - pos
    {
      var found := Find(msg, phrase, pos);
      FindCounts(msg, phrase, pos);
      if found.None? {
        break;
      }
      occurrences := occurrences + 1;
      pos := found.value + |phrase|;
    }
    NonOverlappingBound(msg, phrase);
  }

  /** Every phrase of the entries is non-empty (guaranteed by `parsePhrase`). */
  ghost predicate PhrasesNonEmpty(es: seq<(string, int)>)
  {
    forall i :: 0 <= i < |es| ==> es[i].0 != []
  }

  /** The rank: each entry's score times its phrase's occurrence count, summed in visiting order. */
  ghost function WeightedScore(msg: string, es: seq<(string, int)>): int
    requires PhrasesNonEmpty(es)
    decreases |es|
  {
    if es == [] then 0
    else
      var last := es[|es| - 1];
      WeightedScore(msg, es[..|es| - 1]) + last.1 * NonOverlapping(msg, last.0)
  }

  /** With non-negative scores the rank is never negative. */
  lemma {:induction false} WeightedScoreNonNegative(msg: string, es: seq<(string, int)>)
    requires PhrasesNonEmpty(es)
    requires forall i :: 0 <= i < |es| ==> es[i].1 >= 0
    ensures WeightedScore(msg, es) >= 0
    decreases |es|
  {
    if es != [] {
      WeightedScoreNonNegative(msg, es[..|es| - 1]);
    }
  }

  /** The phrases of a filter, as the range-for over it sees them, are non-empty. */
  lemma FilterPhrasesNonEmpty(hash: string -> nat, filter: Table<string, int>, es: seq<(string, int)>)
    requires forall k :: k in Contents(filter) ==> k != []
    requires ToMap(es) == Contents(filter)
    ensures PhrasesNonEmpty(es)
  {
    forall i | 0 <= i < |es| ensures es[i].0 != [] {
      ToMapIsLookup(es, es[i].0);
    }
  }

  /**
   * `rankMsg`: walk the filter from `begin()` to `end()`, add score times
   * occurrence count for each phrase, and compare the total with the threshold.
   */
  method RankMsg(hash: string -> nat, msg: string, filter: Table<string, int>, threshold: int) returns (spam: bool)
    requires Layout(hash, filter)
    requires forall k :: k in Contents(filter) ==> k != []
    ensures PhrasesNonEmpty(Flatten(filter.buckets))
    ensures spam <==> WeightedScore(msg, Flatten(filter.buckets)) >= threshold
  {
    var es := Entries(hash, filter);
    FilterPhrasesNonEmpty(hash, filter, es);
    var rank := 0;
    var i := 0;
    while i < |es|
      invariant i <= |es|
      invariant rank == WeightedScore(msg, es[..i])
    {
      var occurrences := Occurrences(msg, es[i].0);
      assert es[..i + 1][..i] == es[..i];
      rank := rank + es[i].1 * occurrences;
      i := i + 1;
    }
    assert es[..|es|] == es;
    spam := rank >= threshold;
  }

  /** An empty filter never reaches a positive threshold. */
  lemma EmptyFilterIsNeverSpam(hash: string -> nat, msg: string, filter: Table<string, int>, threshold: int)
    requires Layout(hash, filter) && Contents(filter) == map[]
    requires threshold > 0
    ensures PhrasesNonEmpty(Flatten(filter.buckets))
    ensures WeightedScore(msg, Flatten(filter.buckets)) < threshold
  {
    SizeIsContentsSize(hash, filter);
    assert Flatten(filter.buckets) == [];
  }

  /** The records with their phrases lowered, as `parseDataBaseFile` inserts them. */
  function Lowered(records: seq<Record>): (es: seq<(string, int)>)
    ensures |es| == |records|
    ensures forall i :: 0 <= i < |es| ==> es[i] == (ToLowerCase(records[i].phrase), records[i].score)
    decreases |records|
  {
    if records == [] then []
    else [(ToLowerCase(records[0].phrase), records[0].score)] + Lowered(records[1..])
  }

  /**
   * The insert loop of `parseDataBaseFile` as a fold of `insert`: a phrase
   * already in the filter keeps its score, so the first score seen wins.
   */
  function InsertAll(hash: string -> nat, es: seq<(string, int)>, filter: Table<string, int>): (r: Table<string, int>)
    requires Valid(hash, filter)
    ensures Valid(hash, r)
    ensures Contents(r) == ToMap(es) + Contents(filter)
    decreases |es|
  {
    if es == [] then filter
    else
      var next := Insert(hash, filter, es[0].0, es[0].1).0;
      var r := InsertAll(hash, es[1..], next);
      ToMapFoldStep(es, Contents(filter), Contents(next), Contents(r));
      r
  }

  /** `parseCSVLine` on every line, failing on the first bad one. */
  function ParseLines(lines: seq<string>): (r: Result<seq<Record>, Failure>)
    ensures r.Ok? <==> forall i :: 0 <= i < |lines| ==> ParseCsvLine(lines[i]).Ok?
    ensures r.Ok? ==> |r.value| == |lines| &&
                      forall i :: 0 <= i < |lines| ==> ParseCsvLine(lines[i]) == Ok(r.value[i])
  {
    MapResults(ParseCsvLine, lines)
  }

  /**
   * `parseDataBaseFile` after the file has been read into lines: every line
   * must parse; the filter maps each lowered phrase to its first score.
   */
  function ParseDataBase(hash: string -> nat, lines: seq<string>): (r: Result<Table<string, int>, Failure>)
    ensures r.Ok? <==> forall i :: 0 <= i < |lines| ==> ParseCsvLine(lines[i]).Ok?
    ensures r.Ok? ==> Valid(hash, r.value) && Contents(r.value) == ToMap(Lowered(ParseLines(lines).value))
    ensures r.Ok? ==> forall k :: k in Contents(r.value) ==> k != [] && Contents(r.value)[k] >= 0
  {
    match ParseLines(lines)
    case Err(e) => Err(e)
    case Ok(records) =>
      var es := Lowered(records);
      var filter := InsertAll(hash, es, New(hash));
      assert Contents(filter) == ToMap(es);
      forall k | k in Contents(filter) ensures k != [] && Contents(filter)[k] >= 0 {
        ToMapIsLookup(es, k);
      }
      Ok(filter)
  }

  /**
   * `main` after the two files have been read: build the filter, lower the
   * message, parse the threshold, and rank. Any invalid input is a failure.
   */
  method Detect(hash: string -> nat, dbLines: seq<string>, message: string, thresholdArg: string)
    returns (r: Result<Verdict, Failure>)
    ensures r.Ok? <==> ParseDataBase(hash, dbLines).Ok? && ParseThreshold(thresholdArg).Ok?
    ensures r.Ok? ==> PhrasesNonEmpty(Flatten(ParseDataBase(hash, dbLines).value.buckets))
    ensures r.Ok? ==>
              (r.value == Spam <==>
                 WeightedScore(ToLowerCase(message), Flatten(ParseDataBase(hash, dbLines).value.buckets))
                   >= ParseThreshold(thresholdArg).value)
  {
    var db := ParseDataBase(hash, dbLines);
    if db.Err? {
      return Err(InvalidInput);
    }
    var msg := ToLowerCase(message);
    var threshold := ParseThreshold(thresholdArg);
    if threshold.Err? {
      return Err(InvalidInput);
    }
    var spam := RankMsg(hash, msg, db.value, threshold.value);
    r := Ok(if spam then Spam else NotSpam);
  }
}

=== FILE: text.dfy ===
/**
 * The C library character classes (in the "C" locale) and the parts of
 * `std::string` and `std::stoi` that the two command-line programs use.
 */
module Text {
  import opened Wrappers

  /** `isdigit`. */
  predicate IsDigitChar(c: char)
  {
    '0' <= c <= '9'
  }

  /** `isalpha`. */
  predicate IsAlphaChar(c: char)
  {
    ('a' <= c <= 'z') || ('A' <= c <= 'Z')
  }

  /** `isspace`: space, tab, newline, vertical tab, form feed, carriage return. */
  predicate IsSpaceChar(c: char)
  {
    c == ' ' || c == '\t' || c == '\n' || c == '\U{000B}' || c == '\U{000C}' || c == '\r'
  }

  /** Every character is a decimal digit (vacuously true of the empty string). */
  ghost predicate AllDigits(s: string)
  {
    forall i :: 0 <= i < |s| ==> IsDigitChar(s[i])
  }

  /** The value of a digit character. */
  function DigitValue(c: char): (d: nat)
    requires IsDigitChar(c)
    ensures d < 10
  {
    (c - '0') as nat
  }

  /** The value of a string of decimal digits, most significant first. */
  function DecimalValue(s: string): nat
    requires AllDigits(s)
    decreases |s|
  {
    if s == [] then 0
    else DecimalValue(s[..|s| - 1]) * 10 + DigitValue(s[|s| - 1])
  }

  /** How many decimal digits `s` starts with. */
  function LeadingDigits(s: string): (n: nat)
    ensures n <= |s|
    ensures AllDigits(s[..n])
    ensures n < |s| ==> !IsDigitChar(s[n])
    decreases |s|
  {
    if s == [] || !IsDigitChar(s[0]) then 0
    else
      var n := 1 + LeadingDigits(s[1..]);
      assert s[..n] == [s[0]] + s[1..][..n - 1];
      n
  }

  /** How many white-space characters `s` starts with. */
  function LeadingSpaces(s: string): (n: nat)
    ensures n <= |s|
    ensures forall i :: 0 <= i < n ==> IsSpaceChar(s[i])
    ensures n < |s| ==> !IsSpaceChar(s[n])
    decreases |s|
  {
    if s == [] || !IsSpaceChar(s[0]) then 0
    else 1 + LeadingSpaces(s[1..])
  }

  /**
   * `std::stoi(s)` in base 10: skip leading white space, read an optional sign
   * and then the longest run of digits; `None` stands for the
   * `std::invalid_argument` thrown when there is no digit. Characters after
   * the digits are ignored.
   */
  function StoI(s: string): (r: Option<int>)
    ensures r.Some? ==> exists i :: 0 <= i < |s| && IsDigitChar(s[i])
    ensures r.Some? && r.value < 0 ==> '-' in s
  {
    var t := s[LeadingSpaces(s)..];
    var negative := t != [] && t[0] == '-';
    var u := if t != [] && (t[0] == '+' || t[0] == '-') then t[1..] else t;
    var n := LeadingDigits(u);
    if n == 0 then None
    else
      assert IsDigitChar(u[0]);
      assert negative ==> t[0] in s;
      Some(if negative then -(DecimalValue(u[..n]) as int) else DecimalValue(u[..n]) as int)
  }

  /** On a non-empty digit string `stoi` yields its decimal value. */
  lemma StoIOfDigits(s: string)
    requires s != [] && AllDigits(s)
    ensures StoI(s) == Some(DecimalValue(s) as int)
  {
    StoIDigitsThen(s, []);
    assert s + [] == s;
  }

  /** `stoi` stops at the first character after a run of digits. */
  lemma StoIDigitsThen(s: string, rest: string)
    requires s != [] && AllDigits(s)
    requires rest == [] || !IsDigitChar(rest[0])
    ensures StoI(s + rest) == Some(DecimalValue(s) as int)
  {
    var w := s + rest;
    assert !IsSpaceChar(w[0]);
    assert w[0..] == w;
    DigitsRunThen(s, rest);
    assert w[..|s|] == s;
  }

  /** The run of digits at the front of `s + rest` is exactly `s`. */
  lemma {:induction false} DigitsRunThen(s: string, rest: string)
    requires AllDigits(s)
    requires rest == [] || !IsDigitChar(rest[0])
    ensures LeadingDigits(s + rest) == |s|
    decreases |s|
  {
    if s != [] {
      assert (s + rest)[1..] == s[1..] + rest;
      DigitsRunThen(s[1..], rest);
    }
  }

  /**
   * `str.find(c, pos)`: the first index at or after `pos` holding `c`, or
   * `None` for `npos`.
   */
  function FindChar(s: string, c: char, pos: nat): (r: Option<nat>)
    ensures r.Some? ==> pos <= r.value < |s| && s[r.value] == c
    ensures r.Some? ==> forall i :: pos <= i < r.value ==> s[i] != c
    ensures r.None? ==> forall i :: pos <= i < |s| ==> s[i] != c
    decreases |s| - pos
  {
    if pos >= |s| then None
    else if s[pos] == c then Some(pos)
    else FindChar(s, c, pos + 1)
  }

  /** `s` occurs in `text` at position `i`. */
  ghost predicate OccursAt(text: string, s: string, i: nat)
  {
    i + |s| <= |text| && text[i..i + |s|] == s
  }

  /**
   * `text.find(s, pos)`: the first position at or after `pos` where `s` occurs,
   * or `None` for `npos`.
   */
  function Find(text: string, s: string, pos: nat): (r: Option<nat>)
    ensures r.Some? ==> pos <= r.value && OccursAt(text, s, r.value)
    ensures r.Some? ==> forall i :: pos <= i < r.value ==> !OccursAt(text, s, i)
    ensures r.None? ==> forall i :: pos <= i ==> !OccursAt(text, s, i)
    decreases |text| - pos
  {
    if pos + |s| > |text| then None
    else if text[pos..pos + |s|] == s then Some(pos)
    else Find(text, s, pos + 1)
  }
}

=== FILE: tokenizer.dfy ===
/**
 * `boost::tokenizer` over a `boost::char_separator` with one dropped separator
 * character, in its two modes: keeping empty tokens (the spam detector's CSV
 * lines) and dropping them (the fractal drawer's command lines).
 */
module Tokenizer {

  /**
   * The pieces between separators: `n` separators give `n + 1` pieces, some of
   * them possibly empty.
   */
  function Pieces(s: string, sep: char): (parts: seq<string>)
    ensures |parts| >= 1
    ensures forall i :: 0 <= i < |parts| ==> sep !in parts[i]
    decreases |s|
  {
    if s == [] then [""]
    else
      var rest := Pieces(s[1..], sep);
      if s[0] == sep then [""] + rest
      else [[s[0]] + rest[0]] + rest[1..]
  }

  /**
   * Split on every occurrence of `sep`, keeping empty tokens. The token
   * iterator stops before it calls the separator when the input is exhausted,
   * so the empty line has no token at all; any other line has one more token
   * than it has separators.
   */
  function SplitKeep(s: string, sep: char): (parts: seq<string>)
    ensures parts == [] <==> s == []
    ensures forall i :: 0 <= i < |parts| ==> sep !in parts[i]
  {
    if s == [] then [] else Pieces(s, sep)
  }

  /** Tokens glued back together with the separator between consecutive ones. */
  function Join(parts: seq<string>, sep: char): string
    decreases |parts|
  {
    if parts == [] then []
    else if |parts| == 1 then parts[0]
    else parts[0] + [sep] + Join(parts[1..], sep)
  }

  /** Prefixing the first token prefixes the joined string. */
  lemma JoinConsFirst(c: char, parts: seq<string>, sep: char)
    requires |parts| >= 1
    ensures Join([[c] + parts[0]] + parts[1..], sep) == [c] + Join(parts, sep)
  {
    var ps := [[c] + parts[0]] + parts[1..];
    assert ps[1..] == parts[1..];
  }

  /** Joining the pieces gives back the line. */
  lemma {:induction false} JoinPieces(s: string, sep: char)
    ensures Join(Pieces(s, sep), sep) == s
    decreases |s|
  {
    if s != [] {
      var rest := Pieces(s[1..], sep);
      JoinPieces(s[1..], sep);
      if s[0] == sep {
        assert ([""] + rest)[1..] == rest;
      } else {
        JoinConsFirst(s[0], rest, sep);
      }
      assert s == [s[0]] + s[1..];
    }
  }

  /** Joining the tokens of a split gives back the line, the empty line included. */
  lemma JoinSplitKeep(s: string, sep: char)
    ensures Join(SplitKeep(s, sep), sep) == s
  {
    if s != [] {
      JoinPieces(s, sep);
    }
  }

  /** A separator-free prefix lands in the first piece. */
  lemma {:induction false} PiecesPrefix(w: string, t: string, sep: char)
    requires sep !in w
    ensures Pieces(w + t, sep) == [w + Pieces(t, sep)[0]] + Pieces(t, sep)[1..]
    decreases |w|
  {
    if w == [] {
      var parts := Pieces(t, sep);
      assert w + t == t;
      assert w + parts[0] == parts[0];
      assert parts == [parts[0]] + parts[1..];
    } else {
      assert (w + t)[1..] == w[1..] + t;
      assert (w + t)[0] == w[0];
      PiecesPrefix(w[1..], t, sep);
      assert [w[0]] + (w[1..] + Pieces(t, sep)[0]) == w + Pieces(t, sep)[0];
    }
  }

  /** Cutting a join of separator-free tokens gives back those tokens. */
  lemma {:induction false} PiecesJoin(parts: seq<string>, sep: char)
    requires |parts| >= 1
    requires forall i :: 0 <= i < |parts| ==> sep !in parts[i]
    ensures Pieces(Join(parts, sep), sep) == parts
    decreases |parts|
  {
    if |parts| == 1 {
      PiecesPrefix(parts[0], [], sep);
      assert parts[0] + [] == parts[0];
    } else {
      var tail := [sep] + Join(parts[1..], sep);
      assert Join(parts, sep) == parts[0] + tail;
      PiecesPrefix(parts[0], tail, sep);
      PiecesJoin(parts[1..], sep);
      assert tail[1..] == Join(parts[1..], sep);
      assert Pieces(tail, sep) == [""] + parts[1..];
      assert parts[0] + "" == parts[0];
    }
  }

  /**
   * Splitting a join of separator-free tokens gives back those tokens, except
   * for the single empty token: its join is the empty line, which has none.
   */
  lemma SplitKeepJoin(parts: seq<string>, sep: char)
    requires parts != [""]
    requires forall i :: 0 <= i < |parts| ==> sep !in parts[i]
    ensures SplitKeep(Join(parts, sep), sep) == parts
  {
    if parts != [] {
      PiecesJoin(parts, sep);
      if |parts| >= 2 {
        assert Join(parts, sep) == parts[0] + [sep] + Join(parts[1..], sep);
        assert sep in Join(parts, sep);
      }
    }
  }

  /** The non-empty tokens, in order. */
  function NonEmpty(parts: seq<string>): (r: seq<string>)
    ensures forall i :: 0 <= i < |r| ==> r[i] != [] && r[i] in parts
    ensures |r| <= |parts|
    decreases |parts|
  {
    if parts == [] then []
    else if parts[0] == [] then NonEmpty(parts[1..])
    else [parts[0]] + NonEmpty(parts[1..])
  }

  /** Split on `sep`, dropping empty tokens (the default `char_separator` policy). */
  function SplitDrop(s: string, sep: char): (tokens: seq<string>)
    ensures forall i :: 0 <= i < |tokens| ==> tokens[i] != [] && sep !in tokens[i]
  {
    NonEmpty(SplitKeep(s, sep))
  }

  /** All characters of `s` other than `sep`, in order. */
  function Without(s: string, sep: char): string
    decreases |s|
  {
    if s == [] then [] else (if s[0] == sep then [] else [s[0]]) + Without(s[1..], sep)
  }

  /** Tokens laid end to end. */
  function Concat(parts: seq<string>): string
    decreases |parts|
  {
    if parts == [] then [] else parts[0] + Concat(parts[1..])
  }

  /** Dropping empty tokens loses no character: the tokens hold exactly the non-separator characters. */
  lemma {:induction false} SplitDropKeepsCharacters(s: string, sep: char)
    ensures Concat(SplitDrop(s, sep)) == Without(s, sep)
    decreases |s|
  {
    ConcatNonEmpty(SplitKeep(s, sep));
    ConcatSplitKeep(s, sep);
  }

  /** Empty tokens add nothing to a concatenation. */
  lemma {:induction false} ConcatNonEmpty(parts: seq<string>)
    ensures Concat(NonEmpty(parts)) == Concat(parts)
    decreases |parts|
  {
    if parts != [] {
      ConcatNonEmpty(parts[1..]);
      if parts[0] != [] {
        assert ([parts[0]] + NonEmpty(parts[1..]))[1..] == NonEmpty(parts[1..]);
      }
    }
  }

  /** The pieces hold exactly the non-separator characters. */
  lemma {:induction false} ConcatPieces(s: string, sep: char)
    ensures Concat(Pieces(s, sep)) == Without(s, sep)
    decreases |s|
  {
    if s == [] {
      assert Concat([""]) == "" + Concat([]);
    } else {
      var rest := Pieces(s[1..], sep);
      ConcatPieces(s[1..], sep);
      if s[0] == sep {
        assert ([""] + rest)[1..] == rest;
      } else {
        var ps := [[s[0]] + rest[0]] + rest[1..];
        assert ps[1..] == rest[1..];
        assert Concat(rest) == rest[0] + Concat(rest[1..]);
      }
    }
  }

  /** The keep-empty tokens hold exactly the non-separator characters. */
  lemma ConcatSplitKeep(s: string, sep: char)
    ensures Concat(SplitKeep(s, sep)) == Without(s, sep)
  {
    if s != [] {
      ConcatPieces(s, sep);
    }
  }
}

=== FILE: wrappers.dfy ===
/** Failure-carrying result types used in place of the C++ exceptions. */
module Wrappers {

  /** A value that may be absent; stands for "not found" lookups. */
  datatype Option<+T> = None | Some(value: T)

  /** Either a computed value or the error that the C++ code would have thrown. */
  datatype Result<+R, +E> = Ok(value: R) | Err(error: E)

  /** `f` applied to each element in order, stopping at the first error. */
  function MapResults<T, R, E>(f: T -> Result<R, E>, xs: seq<T>): (r: Result<seq<R>, E>)
    ensures r.Ok? <==> forall i :: 0 <= i < |xs| ==> f(xs[i]).Ok?
    ensures r.Ok? ==> |r.value| == |xs| && forall i :: 0 <= i < |xs| ==> f(xs[i]) == Ok(r.value[i])
    ensures r.Err? ==> exists i :: 0 <= i < |xs| && f(xs[i]) == Err(r.error) &&
                                   forall j :: 0 <= j < i ==> f(xs[j]).Ok?
    decreases |xs|
  {
    if xs == [] then Ok([])
    else
      var rest := MapResults(f, xs[1..]);
      assert forall i :: 1 <= i < |xs| ==> xs[i] == xs[1..][i - 1];
      match f(xs[0])
      case Err(e) => Err(e)
      case Ok(v) =>
        if rest.Err? then Err(rest.error) else Ok([v] + rest.value)
  }
}
